=== FILE: README.md ===
# A verified model of the concurrent board game's core

The game puts players and three spawner robots on a shared N x N board.
Each player is a thread. It claims a start cell, then repeatedly rolls a die,
plans a straight path toward the nearest coin, and walks it, collecting what
lies on each cell. Coins add to its purse, a life adds a life, and a trap
takes one away and can kill it. The robots keep stocking the board with
lives, coins and traps, and the coin and trap counts are capped at a tenth
of the cells. An orchestrator registers players, cuts them into rounds of a
fixed size, watches each round until time runs out or at most one player is
alive, names the winner, and offers to top up an incomplete last group.

This project models that logic sequentially, in five modules:

- `Wrappers` (wrappers.dfy): `Option`, which stands in for null references.
- `Board` (board.dfy): the board as an immutable `BoardState`.
  - Each cell holds an optional occupant, an optional item with its quantity, and the permit count of its semaphore.
  - The board also keeps four counters.
  - Every board operation is a pure transition `BoardState -> (BoardState, result)`.
  - The invariant `Inv` ties the counters to the grid. It also says every quantity is one a placement writes, and that a cell with no permit left has an occupant.
- `Player` (player.dfy): a player's state and its turn.
  - The turn consists of the coin scan, straight path building, gap-closing direction choice, the fixed-order fallback, item effects, and the walk with release, occupy and revert.
  - The player's loop over the round is included.
- `Robots` (robots.dfy): one loop iteration of each spawner, their loops over a sequence of wake-ups, and any interleaving of robot iterations and player moves on one board.
- `Game` (game.dfy):
  - the player registry and registration loop;
  - the round guard, and the cohort and waiting ranges of each round;
  - the monitor's end condition and the winner;
  - the end of a round, the top-up question, and the session loop.

How outside influences are represented:

- Randomness becomes explicit `nat` parameters, taken modulo the number of choices.
- The clock becomes the elapsed time each monitor poll reads.
- Console answers become strings.
- The round flag as another thread leaves it becomes a boolean per wake-up.

## Model

| member | source | states |
|---|---|---|
| Board.NewBoard | src/main/java/board/Board.java:31-50 | A new board has the given size, every cell empty with one permit, all counters zero, and satisfies the invariant and the caps |
| Board.IsOccupied | src/main/java/board/Board.java:201-204 | A position off the board counts as occupied; on the board, occupied exactly when the cell has an occupant |
| Board.IsValid | src/main/java/board/Board.java:297-299 | On a well-formed board, a position is valid exactly when it names a cell of the grid |
| Board.ItemAt | src/main/java/board/Board.java:206-209 | No item off the board; otherwise the cell's item |
| Board.QuantityAt | src/main/java/board/Board.java:211-214 | Quantity 0 off the board; otherwise the cell's quantity |
| Board.TryOccupy | src/main/java/board/Board.java:136-156 | Succeeds exactly when the position is on the board, the cell's semaphore has a permit and the cell has no occupant. A failure (invalid position, no permit, or a permit taken and given back because the cell was occupied) leaves the board unchanged. A success takes one permit and makes the caller the occupant, touching nothing else |
| Board.Release | src/main/java/board/Board.java:158-172 | Off the board nothing changes. Otherwise a permit is always returned, and the occupant is cleared only when it is the caller; a stale release keeps the occupant. Items, quantities and the other cells are untouched |
| Board.OccupyReleaseRoundTrip | src/main/java/board/Board.java:136-172 | Occupying a cell and then releasing it as the same caller restores the board exactly |
| Board.ReleaseOccupyRoundTrip | src/main/java/board/Board.java:136-172 | Releasing its own cell and occupying it again succeeds and restores the board exactly |
| Board.OccupySucceedsIffFree | src/main/java/board/Board.java:136-156 | On a board whose locks are sound, an occupy succeeds exactly when the position is not occupied |
| Board.OccupiedCellRefusesAll | src/main/java/board/Board.java:143-146 | An occupied cell refuses every caller, including its own occupant, and the board stays the same |
| Board.Collect | src/main/java/board/Board.java:174-199 | Returns the item that was on the cell. Off the board or on an empty cell nothing changes. Otherwise the item is cleared with its quantity. A coin lowers the coin total by its quantity and the coin-cell count by one, a life lowers the life count by one, and a trap changes no counter. The occupant and semaphore are untouched |
| Board.Scan | src/main/java/board/Board.java:116-134 | The positions admitted by a filter (unoccupied, vacant, or holding a coin) are exactly those returned, in strictly increasing row-major order |
| Board.Pick | src/main/java/board/Board.java:132-133 | Picking from the candidates gives nothing exactly when there are none, and otherwise one of them |
| Board.RandomFreePosition | src/main/java/board/Board.java:116-134 | Nothing exactly when every cell is occupied; otherwise an in-bounds cell without occupant |
| Board.RandomFreeSpot | src/main/java/board/Board.java:276-294 | Nothing exactly when no cell is both unoccupied and itemless; otherwise such a cell |
| Board.PlaceLife | src/main/java/board/Board.java:217-230 | Succeeds exactly when a vacant cell exists. It writes a life of quantity 1 on the vacant cell the roll picks, keeping that cell's occupant and locks, and leaves every other cell as it was. The life count rises by one; a failure changes nothing |
| Board.Drop | src/main/java/board/Board.java:217-222 | Succeeds exactly when a cell is both unoccupied and itemless, writes the item and quantity on that cell and touches no other cell; a failure changes nothing |
| Board.CoinAmount | src/main/java/board/Board.java:241-242 | Every drawn coin amount is one of 1, 2, 5, 10 |
| Board.CoinAmountDrawsEvery | src/main/java/board/Board.java:241-242 | Every amount of 1, 2, 5, 10 is drawn by some roll |
| Board.PlaceCoins | src/main/java/board/Board.java:232-254 | At the cap (10 x coin cells >= N x N) it fails and changes nothing. Otherwise it succeeds exactly when a vacant cell exists, writes an amount from {1, 2, 5, 10} on the vacant cell the roll picks, keeping that cell's occupant and locks, and leaves every other cell as it was. It adds that amount to the coin total and one to the coin-cell count |
| Board.PlaceTrap | src/main/java/board/Board.java:256-274 | At the cap (10 x traps >= N x N) it fails and changes nothing. Otherwise it succeeds exactly when a vacant cell exists. It writes a trap on the vacant cell the roll picks, keeping that cell's occupant and locks, and leaves every other cell as it was. The trap count rises by one |
| Board.CapIsCeiling | src/main/java/board/Board.java:307-313 | The integer cap test 10 x count < N x N holds exactly when count is below the ceiling of N x N / 10 |
| Board.CanPlaceCoins | src/main/java/board/Board.java:307-309 | Coins may be placed exactly while the coin-cell count is below the ceiling of N x N / 10 |
| Board.CanPlaceTraps | src/main/java/board/Board.java:311-313 | Traps may be placed exactly while the trap count is below the ceiling of N x N / 10 |
| Board.TryOccupyKeepsInv | src/main/java/board/Board.java:136-156 | Occupying keeps the counters, quantities and lock soundness |
| Board.ReleaseKeepsInv | src/main/java/board/Board.java:158-172 | Releasing keeps the counters, quantities and lock soundness |
| Board.CollectKeepsInv | src/main/java/board/Board.java:184-191 | Collecting keeps the counters equal to the grid's totals and the caps, and never changes the trap count, which only ever counts placements |
| Board.DropKeepsInv | src/main/java/board/Board.java:221-222 | Writing a well-formed item on a vacant cell keeps the invariant |
| Board.PlaceLifeKeepsInv | src/main/java/board/Board.java:217-230 | Placing a life keeps the invariant and the caps |
| Board.PlaceCoinsKeepsInv | src/main/java/board/Board.java:232-254 | Placing coins keeps the invariant, and the coin-cell count never passes the ceiling of N x N / 10 |
| Board.PlaceTrapKeepsInv | src/main/java/board/Board.java:256-274 | Placing a trap keeps the invariant, and the trap count never passes the ceiling of N x N / 10 |
| Board.PlaceCoinsCollectRoundTrip | src/main/java/board/Board.java:174-254 | Collecting the coins just placed returns them and restores the board exactly |
| Player.MarkerIndex | src/main/java/entities/Player.java:46 | The marker index is below 12 and congruent to id - 1 modulo 12 |
| Player.MarkersDistinct | src/main/java/entities/Player.java:46 | Any twelve consecutive ids get pairwise distinct markers |
| Player.NewPlayer | src/main/java/entities/Player.java:36-47 | A new player has its id and marker, 2 lives, 0 coins, is alive, is not yet in a round, and stands nowhere |
| Player.StartGame | src/main/java/entities/Player.java:58-60 | Sets the round flag and changes nothing else |
| Player.StopGame | src/main/java/entities/Player.java:62-64 | Clears the round flag and changes nothing else |
| Player.Dice | src/main/java/entities/Player.java:116 | A roll is in 1..6 |
| Player.DiceCoversFaces | src/main/java/entities/Player.java:116 | Every face 1..6 is rolled by some draw |
| Player.BuildPath | src/main/java/entities/Player.java:295-310 | At most maxSteps cells, the k-th being k steps from the start in one direction, each in bounds and unoccupied. The path stops short of maxSteps only at a cell that is off the board or occupied, and is empty exactly when maxSteps is 0 or the first cell is blocked |
| Player.BuildPathIsMaximalRun | src/main/java/entities/Player.java:275-310 | Any run of open cells in one direction that is at most maxSteps long and ends before a blocked cell or at maxSteps is the built path: the path is the unique maximal run |
| Player.BuildPathIsConnected | src/main/java/entities/Player.java:295-310 | The path starts next to the start cell and each cell is next to the one before it |
| Player.FirstPath | src/main/java/entities/Player.java:223-228 | Empty exactly when every direction's path is empty; otherwise the path of the earliest direction in the list that has one, every earlier direction having none |
| Player.PlanDirections | src/main/java/entities/Player.java:202-220 | The directions tried are exactly those that bring the player closer to the target, at most two and distinct. The one on the larger gap comes first, the vertical one on a tie. None exactly when the player is on the target |
| Player.PlanPathToTarget | src/main/java/entities/Player.java:195-231 | Empty exactly when no gap-closing direction has an open path; otherwise the straight path along the first gap-closing direction, in the planner's order, that has one. The path need not end on the target |
| Player.InsertByBenefit | src/main/java/entities/Player.java:257 | Insertion keeps the headings as a multiset and keeps them ordered by non-increasing remaining gap |
| Player.SortByBenefit | src/main/java/entities/Player.java:257 | The headings come out permuted and ordered by non-increasing remaining gap |
| Player.SortTwoHeadings | src/main/java/entities/Player.java:257 | Sorting two headings swaps them only when the second has a strictly larger gap, so the sort is stable |
| Player.HeadingOrderIsPlanOrder | src/main/java/entities/Player.java:237-270 | Ordering the candidate headings by descending gap, with ties in insertion order, yields exactly the direction order the planner uses |
| Player.MoveTowardsTarget | src/main/java/entities/Player.java:237-270 | Empty exactly when no gap-closing direction has an open path; otherwise the path along the first direction, in descending order of the gap it closes, that has one |
| Player.MoveTowardsEqualsPlan | src/main/java/entities/Player.java:237-270 | Moving toward a target returns the same path as planning toward it on the same board |
| Player.InsertByDistance | src/main/java/entities/Player.java:188 | Insertion keeps the targets as a multiset |
| Player.SortByDistance | src/main/java/entities/Player.java:188 | The targets come out as a permutation of those given |
| Player.InsertByDistanceOrders | src/main/java/entities/Player.java:188 | Inserting a target that comes after all others in row-major order keeps the list ordered by distance, ties in scan order |
| Player.SortByDistanceOrders | src/main/java/entities/Player.java:188 | Sorting targets listed in row-major order orders them by non-decreasing distance, ties kept in scan order |
| Player.TargetsAt | src/main/java/entities/Player.java:176-183 | One target per position, in order, each carrying its Manhattan distance from the player |
| Player.FindNearestItems | src/main/java/entities/Player.java:171-190 | Exactly the coin cells of the board, never a life or trap cell, each with its distance from the player, sorted by non-decreasing distance |
| Player.FourDirectionsBlocked | src/main/java/entities/Player.java:315-326 | Every direction is blocked exactly when up, down, right and left are blocked |
| Player.FindRandomPath | src/main/java/entities/Player.java:315-326 | Empty exactly when no steps are allowed or none of the four neighbours is open; otherwise the path along the first of up, down, right, left that has one |
| Player.FirstTargetPath | src/main/java/entities/Player.java:144-151 | Empty exactly when no target has a planned path; otherwise a straight path |
| Player.FirstTargetPathIsFirst | src/main/java/entities/Player.java:144-151 | A non-empty result is the plan toward the earliest target in the list that has one; every earlier target's plan is empty |
| Player.FindPathToNearestItem | src/main/java/entities/Player.java:134-166 | Empty exactly when no steps are allowed or none of the four neighbours is in bounds and unoccupied. When some nearest coin has a planned path, the path is the plan toward the first such coin in distance order; when none has, it is the fallback walk, since the partial move toward the nearest coin then finds nothing either |
| Player.PartialMoveAddsNothing | src/main/java/entities/Player.java:154-165 | When no target has a planned path, moving toward the nearest one finds nothing either, so the fallback to a random path is what decides |
| Player.HandleItem | src/main/java/entities/Player.java:371-396 | The cell's item is collected from the board. With no item nothing changes. A coin adds its quantity to the coins, a life adds one life, a trap takes one life and the player stays alive only while lives remain above 0. Nothing else about the player changes |
| Player.HandleItemMonotone | src/main/java/entities/Player.java:371-396 | Coins never decrease and a dead player never comes back to life |
| Player.Advance | src/main/java/entities/Player.java:353-367 | One step releases the current cell and tries the next; it succeeds exactly when that occupy does. On success the player stands on the next cell, and the board and player are those after collecting the next cell's item. On failure the player is unchanged and re-occupies its cell |
| Player.FailedStepRestoresBoard | src/main/java/entities/Player.java:353-367 | A failed step leaves the board and the player exactly as they were: re-occupying the released cell undoes the release |
| Player.AdvanceKeepsHold | src/main/java/entities/Player.java:353-367 | A step keeps the board invariant and leaves the player on the cell its position names, whether the occupy succeeds or is reverted |
| Player.MoveAlongPath | src/main/java/entities/Player.java:331-369 | The walk keeps the board's size and the player's identity, and the player always has a position |
| Player.MoveAlongPathKeepsHold | src/main/java/entities/Player.java:331-369 | Through replans, steps and reverts, the walk keeps the board invariant and the caps and leaves the trap count as it was. It keeps the player on its cell, never lowers its coins and never revives it |
| Player.MoveAlongPathStops | src/main/java/entities/Player.java:335 | When the round is over, or the player is dead, the walk does nothing |
| Player.PlayTurn | src/main/java/entities/Player.java:114-129 | A turn does nothing when the round is over, when the player is dead, or when none of its four neighbours is open. It keeps the board size and the player's id, and the player stays placed. That it otherwise moves is stated by `Player.PlayTurnMoves` |
| Player.PlayTurnKeepsHold | src/main/java/entities/Player.java:114-129 | A turn keeps the board invariant, the caps and the trap count, keeps the player on its cell, never lowers its coins and never revives it |
| Player.PlayTurnFirstStep | src/main/java/entities/Player.java:114-129 | A player with an open neighbour always gets a non-empty path whose first cell is free, and that first step succeeds |
| Player.PlayTurnStepsFirst | src/main/java/entities/Player.java:114-129 | With the round on, a live player with an open neighbour plans a non-empty path and steps onto its first cell; the rest of the turn is the walk along the remainder from there |
| Player.PlayTurnMoves | src/main/java/entities/Player.java:114-129 | With the round on, a live player with an open neighbour ends its turn on a cell of the path it planned, and so never on the cell it started from |
| Player.WalkUnfoldsStep | src/main/java/entities/Player.java:333-367 | When the next cell is free, the walk is one step followed by the walk along the rest of the path; if the occupy fails, it ends with the player back on its cell |
| Player.StepOntoOpenCell | src/main/java/entities/Player.java:353-360 | A step onto an in-bounds, unoccupied neighbour always succeeds |
| Player.AdvanceKeepsOpen | src/main/java/entities/Player.java:353-360 | A successful step leaves every other open cell open, apart from the cell left and the cell entered |
| Player.StraightStep | src/main/java/entities/Player.java:353-360 | A player on a straight run of open cells steps onto the next cell of the run, and the cells after it are still open |
| Player.RunAvoidsStart | src/main/java/entities/Player.java:275-289 | A straight run of cells never comes back to the cell it starts from |
| Player.StraightWalkThrough | src/main/java/entities/Player.java:333-367 | A live player walking a run of open cells ends on a cell of the run: every step succeeds, so it never replans |
| Player.StraightWalkEnds | src/main/java/entities/Player.java:333-367 | After its first step, a walk along an open run ends where it stands or on a cell of the run |
| Player.StraightWalkOn | src/main/java/entities/Player.java:333-367 | After one step along an open run, the walk along the rest ends on a cell of the run |
| Player.FindStartPosition | src/main/java/entities/Player.java:102-112 | Reports whether a start cell was found. A found cell is occupied by the player and only its position changes; when none is found the board and the player are unchanged |
| Player.FindStartSucceedsIffFreeCell | src/main/java/entities/Player.java:102-112 | With sound locks, finding a start cell succeeds exactly when some cell is unoccupied, and the board invariant holds after it |
| Player.NoFreeCellNoStart | src/main/java/entities/Player.java:102-112 | On a full board no attempt succeeds, and the board and the player are unchanged |
| Player.Turns | src/main/java/entities/Player.java:85-92 | A dead player takes no turn; the turns keep the player's id and its position on the board |
| Player.TurnsKeepHold | src/main/java/entities/Player.java:86-93 | Any number of turns keeps the board invariant, the caps and the trap count, keeps the player on its cell, never lowers its coins and never revives it |
| Player.Run | src/main/java/entities/Player.java:67-100 | A player that finds no start cell leaves the board and itself exactly as they were. One that finds one ends standing somewhere but holding no cell, because it releases the cell it ends on |
| Player.RunReleasesCell | src/main/java/entities/Player.java:67-100 | A player holding no cell before its round holds none after it; the invariant and caps hold, the trap count is unchanged, and its coins are not negative |
| Player.TurnsThenRelease | src/main/java/entities/Player.java:85-97 | A player that takes its turns and then releases the cell it ends on leaves a sound board with the caps and trap count kept, has not lost coins, and holds no cell |
| Robots.ActiveRun | src/main/java/entities/LifeRobot.java:48 | The loop runs exactly as many iterations as there are leading wake-ups that see the round flag set |
| Robots.Start | src/main/java/entities/LifeRobot.java:36-38 | Starting sets the round flag |
| Robots.Stop | src/main/java/entities/LifeRobot.java:40-42 | Stopping clears the round flag |
| Robots.FlagGovernsLoop | src/main/java/entities/LifeRobot.java:36-48 | Once stopGame has cleared the flag, the loop runs no iteration; while startGame's flag stays set, it runs on every wake-up |
| Robots.LifeTick | src/main/java/entities/LifeRobot.java:50-60 | A life is placed only below the ceiling on lives, and at or above it the board is unchanged. A tick adds at most one life, changes no other counter, and keeps lives at or below the ceiling |
| Robots.LifeRun | src/main/java/entities/LifeRobot.java:45-72 | The loop runs while the flag is set and its board is that after one life tick per iteration, in order. Over the run it adds at most one life per iteration, keeps the ceiling on lives, the invariant and the caps, and changes no other counter |
| Robots.LifeTicks | src/main/java/entities/LifeRobot.java:48-69 | Life ticks applied one per wake-up, in order, keep the board's shape |
| Robots.CoinTick | src/main/java/entities/CoinRobot.java:46-58 | Coins are placed only under the cap, where a tick is exactly a coin placement, and at the cap the board is unchanged. A tick adds at most one coin cell, and the coin total grows by 0 or by an amount in {1, 2, 5, 10} |
| Robots.CoinRun | src/main/java/entities/CoinRobot.java:43-70 | The loop runs while the flag is set and its board is that after one coin tick per iteration, in order. Over the run it adds at most one coin cell per iteration and keeps the invariant and caps |
| Robots.CoinTicks | src/main/java/entities/CoinRobot.java:46-67 | Coin ticks applied one per wake-up, in order, keep the board's shape |
| Robots.TrapIteration | src/main/java/entities/TrapRobot.java:49-59 | After a placement the loop goes on exactly when the trap robot has not finished its work. The trap count rises by at most one and no other counter changes |
| Robots.HasFinishedWork | src/main/java/entities/TrapRobot.java:86 | The trap robot has finished exactly when the trap count has reached the ceiling of N x N / 10 |
| Robots.TrapRun | src/main/java/entities/TrapRobot.java:43-71 | The loop runs only while the flag is set and the cap is not reached. Its board and iteration count are those of placing one trap per iteration until a placement reaches the cap, over the wake-ups that see the flag set. A robot that has already finished does nothing. The trap count grows by at most one per iteration, and the invariant and caps are kept |
| Robots.TrapPlacements | src/main/java/entities/TrapRobot.java:46-68 | Placing traps one per wake-up until the cap runs at most one iteration per wake-up and keeps the board's shape |
| Robots.TrapPlacementsStep | src/main/java/entities/TrapRobot.java:46-59 | On an unfinished board the robot places a trap, then goes on with the rest of the wake-ups, counting one more iteration |
| Robots.TrapPlacementsDone | src/main/java/entities/TrapRobot.java:46 | With no wake-up left, or with the cap reached, the robot places nothing more |
| Robots.TrapPlacementsBounds | src/main/java/entities/TrapRobot.java:46-68 | The placements stop before the wake-ups run out only at the cap, change nothing on a finished board, add at most one trap per iteration, touch no other counter, and keep the invariant and caps |
| Robots.ApplyKeepsSafe | src/main/java/entities/TrapRobot.java:86 | Any single robot iteration or player move keeps the invariant, the caps and the ceiling on lives. It never lowers the trap count, so a finished trap robot stays finished |
| Robots.ApplyAllKeepsSafe | src/main/java/board/Board.java:184-189 | Any interleaving of robot iterations and player moves keeps the invariant, the caps and the ceiling on lives. The trap count never falls, since collecting a trap does not lower it, and a finished trap robot stays finished |
| Game.AddPlayerToRegistry | src/main/java/Game.java:164-172 | Appends one player whose id is the registry's new size, so ids stay 1, 2, 3, ... in registration order |
| Game.AddPlayers | src/main/java/Game.java:382-384 | Appends n players with the next consecutive ids |
| Game.ReadAnswer | src/main/java/Game.java:142-144 | An answer is yes exactly for "y" or "Y", and no exactly for "n" or "N" |
| Game.Register | src/main/java/Game.java:118-162 | Registration only ever ends with at least the minimum number of players. It keeps the earlier registrations and gives new players consecutive ids |
| Game.RegisterCountsYes | src/main/java/Game.java:126-151 | Registration succeeds exactly when some "n" answer finds enough players. It then ends at the first such answer, every earlier "n" having found too few, after registering one player per earlier "y" |
| Game.Cohort | src/main/java/Game.java:193-201 | The round-g players are the registry's indices from (g-1) x MIN up to g x MIN or the end, in order, rebuilt fresh with their ids. When the round guard holds there are exactly MIN of them |
| Game.CohortFrom | src/main/java/Game.java:193-201 | Rebuilds the players of an index range fresh, with their ids kept |
| Game.Waiting | src/main/java/Game.java:204-207 | The waiting players are the registry from index g x MIN to the end |
| Game.HasEnoughPlayers | src/main/java/Game.java:174-177 | Round g can be played exactly when at least g x MIN players are registered |
| Game.CohortsDisjoint | src/main/java/Game.java:193-201 | Every player of an earlier round has a smaller id than every player of a later round, so no two rounds share a player |
| Game.CohortThenWaiting | src/main/java/Game.java:193-207 | The round's players followed by the waiting players are exactly the registry's players that have not played yet |
| Game.AliveCount | src/main/java/Game.java:274-277 | Counts alive players; zero exactly when nobody is alive |
| Game.AtMostOneAlive | src/main/java/Game.java:279 | At most one player is counted alive exactly when no two distinct players are alive |
| Game.Verdict | src/main/java/Game.java:266-282 | The time limit ends the round exactly when elapsed >= limit. Otherwise the round ends because at most one player is alive, or goes on exactly while two or more are alive |
| Game.Monitor | src/main/java/Game.java:259-288 | Stops at the first poll whose verdict ends the round, with that reason, and runs to the end exactly when no poll ends it |
| Game.Winner | src/main/java/Game.java:328-338 | The winner is alive with a non-negative purse at least as large as every alive player's, and strictly larger than every earlier alive player's, so ties go to the first. There is no winner exactly when every alive player's coins are below zero |
| Game.WinnerWhenCoinsNonNegative | src/main/java/Game.java:328-338 | With non-negative coins, there is no winner exactly when nobody is alive, and a player alive with 0 coins can win |
| Game.EndGame | src/main/java/Game.java:290-311 | Every round player is stopped with nothing else changed, and the round number advances by exactly one. The winner is alive with a non-negative purse at least as large as every alive player's and strictly larger than every earlier one's; there is none exactly when every alive player's coins are below zero |
| Game.AskForNextGame | src/main/java/Game.java:357-395 | Play goes on exactly when the operator says yes and players are left. Only a yes with a leftover group below MIN adds players, exactly enough to complete that group, so the next round's guard holds whenever play goes on. Ids stay consecutive |
| Game.Session | src/main/java/Game.java:93-102 | The first round is played exactly when the registry holds a full group. Every later round follows a "y" to the previous question. With answers left, the session ends only on a refusal or when no full group remains. Every round played has exactly MIN players, namely the players with ids n x MIN + 1 .. n x MIN + MIN in round n + 1, rebuilt fresh. The registry only grows and keeps consecutive ids |

## Left out

- Threads, `Thread.sleep`, joins, the board's read-write lock and the atomic counters. The model is sequential: a round is an interleaving of robot iterations and player moves (`Robots.ApplyAll`), not real concurrency.
- Per-cell semaphore: modelled as a permit count rather than a boolean. A stale release adds a permit without checking, so the count can exceed 1, just as the semaphore's can.
- `java.util.Random`: the dice, the free-cell pick and the coin amount each take an explicit draw, used modulo the number of choices.
- `System.currentTimeMillis`: replaced by the elapsed time each monitor poll carries.
- Console prompts: become answer strings. Running out of answers ends registration with no result, and ends the session.
- `toLowerCase`: restated as accepting the two ASCII spellings of "y" and "n".
- Display, Logger, printBoard and every `println`: output only; no state they change is read back.
- `gameNumber > 1` rebuilds the board and robots: not modelled. A round is modelled on whatever board it is given.
- Game.startGame's thread start-up and "Press Enter" prompt: not modelled.
- waitForThreads and shutdownSystem: not modelled.
- Game constants: taken as constants (MIN 3, time limit 60000 ms). The life robot's ceiling on lives is a parameter, since its setConfig can change it.
- The cap test `count >= size*size*0.1`: restated in integers as `10*count >= N*N`. Floating point is not modelled.
- The cap that test reaches: the ceiling of N*N/10. The model follows the code; GameConfig's `maxCoinCells` states the floor, and that file is not part of this model.
- Java `int` overflow of the counters and coins: not modelled. They stay far below 2^31 on any board the game builds.
- A player's wait for the round to start, and the InterruptedException exits: not modelled.
- Player.MoveAlongPath: reads the round flag once per walk, where the source reads it before every step. A walk stopped part-way by the flag being cleared is not modelled.
- Player.MoveAlongPath: its contract states only shape (size, id, position present). What it keeps is stated by `Player.MoveAlongPathKeepsHold` and `Player.MoveAlongPathStops`.
- Player.MoveAlongPath: sequentially, re-occupying the previous cell after a failed occupy always succeeds, because the player had just released it. The source ignores that call's result.
- Player.MoveAlongPath: sequentially, a path just planned on the same board cannot be blocked at its first cell. That is what bounds the replanning, which the source does not bound.
- Player.PlanPathToTarget: the path need not end on the target. It runs as far as the straight line is open, up to the dice roll, as the source does.
- Player.Turns: the round ending is represented by the roll sequence running out.
- Robots.LifeRun, Robots.CoinRun, Robots.TrapRun: the board does not change between iterations here. When other actors move in between, `Robots.ApplyAllKeepsSafe` still gives the invariant, the caps, the ceiling on lives, a trap count that never falls and a trap robot that stays finished. The per-iteration bounds of these three runs, and LifeRun's lower bound on the life count, are not carried over, because a player collecting a life lowers the life count.
- Robot exception handlers that log and continue: not modelled. No modelled operation fails with an exception.

=== FILE: board.dfy ===
/** The shared N x N board: cells with an optional occupant, an optional
    item with its quantity, the permits of the cell's semaphore, and the
    four counters the spawners and the orchestrator read (lives, coins,
    traps and coin cells). Every operation is a pure transition
    BoardState -> (BoardState, result); the renderer and journal calls
    the operations make are not modelled. */
module Board {
  import opened Wrappers

  /** Identity of whoever stands on a cell (a player's id). */
  type ActorId = int

  datatype ItemType = Coin | Life | Trap

  datatype Pos = Pos(row: int, col: int)

  /** One grid cell. `permits` is the state of the cell's semaphore, which
      is created with a single permit; releasing it never checks how many
      permits it already has. */
  datatype Cell = Cell(occupant: Option<ActorId>, item: Option<ItemType>, quantity: int, permits: nat)

  /** A cell as the board constructor creates it. */
  const FreshCell: Cell := Cell(None, None, 0, 1)

  /** The coin amounts a coin placement chooses from, uniformly by index. */
  const CoinAmounts: seq<int> := [1, 2, 5, 10]

  datatype BoardState = BoardState(
    size: nat,
    grid: seq<seq<Cell>>,
    livesCount: int,
    coinsCount: int,
    trapsCount: int,
    coinCells: int)

  predicate WellFormed(b: BoardState) {
    |b.grid| == b.size && forall r :: 0 <= r < |b.grid| ==> |b.grid[r]| == b.size
  }

  /** The position names a cell of the grid. */
  predicate IsValid(b: BoardState, row: int, col: int): (v: bool)
    ensures WellFormed(b) ==> (v <==> 0 <= row < |b.grid| && 0 <= col < |b.grid[row]|)
  {
    0 <= row < b.size && 0 <= col < b.size
  }

  function At(b: BoardState, row: int, col: int): Cell
    requires WellFormed(b) && IsValid(b, row, col)
  {
    b.grid[row][col]
  }

  /** Overwrites one cell and nothing else. */
  function Put(b: BoardState, row: int, col: int, cell: Cell): (r: BoardState)
    requires WellFormed(b) && IsValid(b, row, col)
    ensures WellFormed(r) && SameCounters(b, r) && r.size == b.size
    ensures At(r, row, col) == cell
    ensures SameElsewhere(b, r, row, col)
  {
    b.(grid := b.grid[row := b.grid[row][col := cell]])
  }

  predicate SameCounters(b: BoardState, b': BoardState) {
    && b'.livesCount == b.livesCount
    && b'.coinsCount == b.coinsCount
    && b'.trapsCount == b.trapsCount
    && b'.coinCells == b.coinCells
  }

  /** Every cell other than (row, col) is the same in both boards. */
  ghost predicate SameElsewhere(b: BoardState, b': BoardState, row: int, col: int)
    requires WellFormed(b) && WellFormed(b')
  {
    b'.size == b.size &&
    forall i, j :: IsValid(b, i, j) && (i != row || j != col) ==> At(b', i, j) == At(b, i, j)
  }

  lemma PutSame(b: BoardState, row: int, col: int)
    requires WellFormed(b) && IsValid(b, row, col)
    ensures Put(b, row, col, At(b, row, col)) == b
  {
    assert b.grid[row][col := b.grid[row][col]] == b.grid[row];
    assert b.grid[row := b.grid[row]] == b.grid;
  }

  lemma PutPut(b: BoardState, row: int, col: int, x: Cell, y: Cell)
    requires WellFormed(b) && IsValid(b, row, col)
    ensures Put(Put(b, row, col, x), row, col, y) == Put(b, row, col, y)
  {
    assert b.grid[row][col := x][col := y] == b.grid[row][col := y];
  }

  // ---------------------------------------------------------------------
  // Totals over the grid, against which the counters are stated

  /** What a counter adds up: the coin value of a cell, or whether it holds
      an item of one kind. */
  datatype Measure = CoinValue | CountOf(kind: ItemType)

  function Weight(c: Cell, m: Measure): int {
    match m
    case CoinValue => if c.item == Some(Coin) then c.quantity else 0
    case CountOf(k) => if c.item == Some(k) then 1 else 0
  }

  function RowTotal(row: seq<Cell>, m: Measure): int {
    if |row| == 0 then 0 else Weight(row[0], m) + RowTotal(row[1..], m)
  }

  function GridTotal(g: seq<seq<Cell>>, m: Measure): int {
    if |g| == 0 then 0 else RowTotal(g[0], m) + GridTotal(g[1..], m)
  }

  lemma {:induction false} RowTotalUpdate(row: seq<Cell>, i: nat, x: Cell, m: Measure)
    requires i < |row|
    ensures RowTotal(row[i := x], m) == RowTotal(row, m) - Weight(row[i], m) + Weight(x, m)
  {
    if i == 0 {
      assert row[i := x][1..] == row[1..];
    } else {
      assert row[i := x][1..] == row[1..][i - 1 := x];
      RowTotalUpdate(row[1..], i - 1, x, m);
    }
  }

  lemma {:induction false} GridTotalUpdate(g: seq<seq<Cell>>, r: nat, c: nat, x: Cell, m: Measure)
    requires r < |g| && c < |g[r]|
    ensures GridTotal(g[r := g[r][c := x]], m) == GridTotal(g, m) - Weight(g[r][c], m) + Weight(x, m)
  {
    RowTotalUpdate(g[r], c, x, m);
    if r == 0 {
      assert g[r := g[r][c := x]][1..] == g[1..];
    } else {
      assert g[r := g[r][c := x]][1..] == g[1..][r - 1 := g[r][c := x]];
      GridTotalUpdate(g[1..], r - 1, c, x, m);
    }
  }

  /** Writing one cell moves every total by the difference of that cell's weights. */
  lemma PutTotal(b: BoardState, row: int, col: int, cell: Cell, m: Measure)
    requires WellFormed(b) && IsValid(b, row, col)
    ensures GridTotal(Put(b, row, col, cell).grid, m) == GridTotal(b.grid, m) - Weight(At(b, row, col), m) + Weight(cell, m)
  {
    GridTotalUpdate(b.grid, row, col, cell, m);
  }

  lemma {:induction false} ItemlessRowTotal(row: seq<Cell>, m: Measure)
    requires forall i :: 0 <= i < |row| ==> row[i].item.None?
    ensures RowTotal(row, m) == 0
  {
    if |row| > 0 {
      ItemlessRowTotal(row[1..], m);
    }
  }

  lemma {:induction false} ItemlessGridTotal(g: seq<seq<Cell>>, m: Measure)
    requires forall r, c :: 0 <= r < |g| && 0 <= c < |g[r]| ==> g[r][c].item.None?
    ensures GridTotal(g, m) == 0
  {
    if |g| > 0 {
      ItemlessRowTotal(g[0], m);
      ItemlessGridTotal(g[1..], m);
    }
  }

  // ---------------------------------------------------------------------
  // Invariants

  /** The counters agree with the grid: coinsCount is the sum of the
      quantities on coin cells, coinCells the number of coin cells,
      livesCount the number of life cells; trapsCount counts every trap
      ever placed, so it is at least the number of trap cells. */
  predicate CountersAgree(b: BoardState)
    requires WellFormed(b)
  {
    && b.coinsCount == GridTotal(b.grid, CoinValue)
    && b.coinCells == GridTotal(b.grid, CountOf(Coin))
    && b.livesCount == GridTotal(b.grid, CountOf(Life))
    && b.trapsCount >= GridTotal(b.grid, CountOf(Trap))
  }

  /** A cell's quantity is the one its placement wrote, and 0 without an item. */
  predicate QuantityFits(c: Cell) {
    match c.item
    case None => c.quantity == 0
    case Some(Coin) => c.quantity in CoinAmounts
    case Some(_) => c.quantity == 1
  }

  ghost predicate ItemsFit(b: BoardState)
    requires WellFormed(b)
  {
    forall r, c :: IsValid(b, r, c) ==> QuantityFits(At(b, r, c))
  }

  /** A cell whose semaphore has no permit left has an occupant. */
  ghost predicate LocksSound(b: BoardState)
    requires WellFormed(b)
  {
    forall r, c :: IsValid(b, r, c) && At(b, r, c).permits == 0 ==> At(b, r, c).occupant.Some?
  }

  ghost predicate Inv(b: BoardState) {
    WellFormed(b) && CountersAgree(b) && ItemsFit(b) && LocksSound(b)
  }

  /** The smallest coin-cell (or trap) count at which the 10% cap test
      `count >= size*size*0.1` holds: the ceiling of N*N/10. */
  function CeilTenth(n: nat): nat {
    (n * n + 9) / 10
  }

  /** Coins may be placed while fewer cells hold coins than a tenth of the
      cells, rounded up. */
  predicate CanPlaceCoins(b: BoardState): (ok: bool)
    ensures ok <==> b.coinCells < CeilTenth(b.size)
  {
    CapIsCeiling(b.coinCells, b.size);
    10 * b.coinCells < b.size * b.size
  }

  /** Traps may be placed while fewer are on the board than a tenth of the
      cells, rounded up. */
  predicate CanPlaceTraps(b: BoardState): (ok: bool)
    ensures ok <==> b.trapsCount < CeilTenth(b.size)
  {
    CapIsCeiling(b.trapsCount, b.size);
    10 * b.trapsCount < b.size * b.size
  }

  /** Neither capped count exceeds the ceiling of a tenth of the cells. */
  predicate CapsHold(b: BoardState) {
    b.coinCells <= CeilTenth(b.size) && b.trapsCount <= CeilTenth(b.size)
  }

  /** The integer cap test is exactly "count below the ceiling of N*N/10". */
  lemma CapIsCeiling(count: int, n: nat)
    ensures 10 * count < n * n <==> count < CeilTenth(n)
  {
    var s := n * n;
    assert CeilTenth(n) == (s + 9) / 10;
  }

  // ---------------------------------------------------------------------
  // Construction and queries

  function NewBoard(n: nat): (b: BoardState)
    ensures b.size == n && Inv(b) && CapsHold(b)
    ensures forall r, c :: IsValid(b, r, c) ==> At(b, r, c) == FreshCell
    ensures b.livesCount == 0 && b.coinsCount == 0 && b.trapsCount == 0 && b.coinCells == 0
  {
    var g := seq(n, _ => seq(n, _ => FreshCell));
    ItemlessGridTotal(g, CoinValue);
    ItemlessGridTotal(g, CountOf(Coin));
    ItemlessGridTotal(g, CountOf(Life));
    ItemlessGridTotal(g, CountOf(Trap));
    BoardState(n, g, 0, 0, 0, 0)
  }

  /** Out-of-bounds positions count as occupied. */
  function IsOccupied(b: BoardState, row: int, col: int): (occupied: bool)
    requires WellFormed(b)
    ensures !IsValid(b, row, col) ==> occupied
    ensures IsValid(b, row, col) ==> (occupied <==> At(b, row, col).occupant.Some?)
  {
    if !IsValid(b, row, col) then true else At(b, row, col).occupant.Some?
  }

  function ItemAt(b: BoardState, row: int, col: int): (item: Option<ItemType>)
    requires WellFormed(b)
    ensures !IsValid(b, row, col) ==> item.None?
    ensures IsValid(b, row, col) ==> item == At(b, row, col).item
  {
    if !IsValid(b, row, col) then None else At(b, row, col).item
  }

  function QuantityAt(b: BoardState, row: int, col: int): (q: int)
    requires WellFormed(b)
    ensures !IsValid(b, row, col) ==> q == 0
    ensures IsValid(b, row, col) ==> q == At(b, row, col).quantity
  {
    if !IsValid(b, row, col) then 0 else At(b, row, col).quantity
  }

  // ---------------------------------------------------------------------
  // Occupying and releasing

  /** Non-blocking attempt to stand on a cell: take the cell's permit, then
      double-check that nobody stands there (giving the permit back if
      somebody does). */
  function TryOccupy(b: BoardState, row: int, col: int, who: ActorId): (r: (BoardState, bool))
    requires WellFormed(b)
    ensures WellFormed(r.0) && SameCounters(b, r.0) && r.0.size == b.size
    ensures r.1 <==> IsValid(b, row, col) && At(b, row, col).permits > 0 && At(b, row, col).occupant.None?
    ensures !r.1 ==> r.0 == b
    ensures r.1 ==> SameElsewhere(b, r.0, row, col)
    ensures r.1 ==> At(r.0, row, col).occupant == Some(who)
    ensures r.1 ==> At(r.0, row, col).permits == At(b, row, col).permits - 1
    ensures r.1 ==> At(r.0, row, col).item == At(b, row, col).item
    ensures r.1 ==> At(r.0, row, col).quantity == At(b, row, col).quantity
  {
    if !IsValid(b, row, col) then (b, false)
    else
      var cell := At(b, row, col);
      if cell.permits == 0 then (b, false)
      else
        var held := cell.(permits := cell.permits - 1);
        if held.occupant.Some? then
          var back := held.(permits := held.permits + 1);
          PutSame(b, row, col);
          (Put(b, row, col, back), false)
        else
          (Put(b, row, col, held.(occupant := Some(who))), true)
  }

  /** Clears the occupant only when the caller is the occupant, and gives
      the cell's permit back in every case. */
  function Release(b: BoardState, row: int, col: int, who: ActorId): (r: BoardState)
    requires WellFormed(b)
    ensures WellFormed(r) && SameCounters(b, r) && r.size == b.size
    ensures !IsValid(b, row, col) ==> r == b
    ensures IsValid(b, row, col) ==> SameElsewhere(b, r, row, col)
    ensures IsValid(b, row, col) ==> At(r, row, col).permits == At(b, row, col).permits + 1
    ensures IsValid(b, row, col) && At(b, row, col).occupant == Some(who) ==> At(r, row, col).occupant.None?
    ensures IsValid(b, row, col) && At(b, row, col).occupant != Some(who) ==> At(r, row, col).occupant == At(b, row, col).occupant
    ensures IsValid(b, row, col) ==> At(r, row, col).item == At(b, row, col).item
    ensures IsValid(b, row, col) ==> At(r, row, col).quantity == At(b, row, col).quantity
  {
    if !IsValid(b, row, col) then b
    else
      var cell := At(b, row, col);
      var cleared := if cell.occupant == Some(who) then cell.(occupant := None) else cell;
      Put(b, row, col, cleared.(permits := cleared.permits + 1))
  }

  /** Occupying a cell its occupant just released restores the board exactly. */
  lemma ReleaseOccupyRoundTrip(b: BoardState, row: int, col: int, who: ActorId)
    requires WellFormed(b) && IsValid(b, row, col) && At(b, row, col).occupant == Some(who)
    ensures TryOccupy(Release(b, row, col, who), row, col, who) == (b, true)
  {
    var cell := At(b, row, col);
    var freed := cell.(occupant := None, permits := cell.permits + 1);
    assert Release(b, row, col, who) == Put(b, row, col, freed);
    assert At(Put(b, row, col, freed), row, col) == freed;
    assert freed.(permits := freed.permits - 1).(occupant := Some(who)) == cell;
    PutPut(b, row, col, freed, cell);
    PutSame(b, row, col);
  }

  /** Releasing a cell just occupied, by the same caller, restores the board exactly. */
  lemma OccupyReleaseRoundTrip(b: BoardState, row: int, col: int, who: ActorId)
    requires WellFormed(b)
    requires TryOccupy(b, row, col, who).1
    ensures Release(TryOccupy(b, row, col, who).0, row, col, who) == b
  {
    var cell := At(b, row, col);
    var held := cell.(permits := cell.permits - 1).(occupant := Some(who));
    PutPut(b, row, col, held, cell);
    PutSame(b, row, col);
  }

  /** Under sound locks the semaphore never refuses an unoccupied cell: the
      attempt succeeds exactly when the cell is in bounds and unoccupied. */
  lemma OccupySucceedsIffFree(b: BoardState, row: int, col: int, who: ActorId)
    requires Inv(b)
    ensures TryOccupy(b, row, col, who).1 <==> !IsOccupied(b, row, col)
  {
  }

  /** Mutual exclusion: once a cell is occupied, nobody else (nor the
      occupant again) can occupy it until it is released. */
  lemma OccupiedCellRefusesAll(b: BoardState, row: int, col: int, who: ActorId, other: ActorId)
    requires WellFormed(b)
    requires TryOccupy(b, row, col, who).1
    ensures !TryOccupy(TryOccupy(b, row, col, who).0, row, col, other).1
  {
  }

  // ---------------------------------------------------------------------
  // Collecting

  /** Removes the item of a cell, lowering the counters of its kind, and
      reports the kind removed; nothing happens on an itemless or
      out-of-bounds cell. */
  function Collect(b: BoardState, row: int, col: int): (r: (BoardState, Option<ItemType>))
    requires WellFormed(b)
    ensures WellFormed(r.0) && r.0.size == b.size
    ensures !IsValid(b, row, col) ==> r == (b, None)
    ensures r.1 == ItemAt(b, row, col)
    ensures r.1.None? ==> r.0 == b
    ensures IsValid(b, row, col) ==> SameElsewhere(b, r.0, row, col)
    ensures IsValid(b, row, col) ==> At(r.0, row, col).item.None?
    ensures r.1.Some? ==> At(r.0, row, col).quantity == 0
    ensures IsValid(b, row, col) ==> At(r.0, row, col).occupant == At(b, row, col).occupant
    ensures IsValid(b, row, col) ==> At(r.0, row, col).permits == At(b, row, col).permits
    ensures r.1 == Some(Coin) ==>
      && r.0.coinsCount == b.coinsCount - At(b, row, col).quantity
      && r.0.coinCells == b.coinCells - 1
      && r.0.livesCount == b.livesCount && r.0.trapsCount == b.trapsCount
    ensures r.1 == Some(Life) ==>
      && r.0.livesCount == b.livesCount - 1
      && r.0.coinsCount == b.coinsCount && r.0.coinCells == b.coinCells && r.0.trapsCount == b.trapsCount
    ensures r.1 != Some(Coin) && r.1 != Some(Life) ==> SameCounters(b, r.0)
  {
    if !IsValid(b, row, col) then (b, None)
    else
      var cell := At(b, row, col);
      if cell.item.None? then (b, None)
      else
        var counted :=
          match cell.item.value
          case Coin => b.(coinsCount := b.coinsCount - cell.quantity, coinCells := b.coinCells - 1)
          case Life => b.(livesCount := b.livesCount - 1)
          case Trap => b;
        (Put(counted, row, col, cell.(item := None, quantity := 0)), cell.item)
  }

  // ---------------------------------------------------------------------
  // Scans for free positions

  /** Which cells a scan collects: no occupant (a player's start), no
      occupant and no item (a spawner's drop), or a coin (a player's targets). */
  datatype Filter = Unoccupied | Vacant | HoldsCoin

  predicate Admits(f: Filter, c: Cell) {
    match f
    case Unoccupied => c.occupant.None?
    case Vacant => c.occupant.None? && c.item.None?
    case HoldsCoin => c.item == Some(Coin)
  }

  /** Row-major order, the order in which the scans visit the grid. */
  predicate RowMajorBefore(p: Pos, q: Pos) {
    p.row < q.row || (p.row == q.row && p.col < q.col)
  }

  ghost predicate RowMajorSorted(ps: seq<Pos>) {
    forall i, j :: 0 <= i < j < |ps| ==> RowMajorBefore(ps[i], ps[j])
  }

  function ScanRow(b: BoardState, f: Filter, row: int, col: nat): (ps: seq<Pos>)
    requires WellFormed(b) && 0 <= row < b.size
    decreases b.size - col
    ensures forall p :: p in ps <==> p.row == row && col <= p.col < b.size && Admits(f, At(b, p.row, p.col))
    ensures RowMajorSorted(ps)
  {
    if col >= b.size then []
    else
      var rest := ScanRow(b, f, row, col + 1);
      if Admits(f, At(b, row, col)) then
        assert forall j :: 0 <= j < |rest| ==> rest[j] in rest;
        [Pos(row, col)] + rest
      else rest
  }

  function ScanFrom(b: BoardState, f: Filter, row: nat): (ps: seq<Pos>)
    requires WellFormed(b)
    decreases b.size - row
    ensures forall p :: p in ps <==> row <= p.row < b.size && 0 <= p.col < b.size && Admits(f, At(b, p.row, p.col))
    ensures RowMajorSorted(ps)
  {
    if row >= b.size then []
    else
      var first := ScanRow(b, f, row, 0);
      var rest := ScanFrom(b, f, row + 1);
      assert forall i :: 0 <= i < |first| ==> first[i] in first;
      assert forall j :: 0 <= j < |rest| ==> rest[j] in rest;
      first + rest
  }

  /** The in-bounds cells a filter admits, in row-major order. */
  function Scan(b: BoardState, f: Filter): (ps: seq<Pos>)
    requires WellFormed(b)
    ensures forall p :: p in ps <==> IsValid(b, p.row, p.col) && Admits(f, At(b, p.row, p.col))
    ensures RowMajorSorted(ps)
  {
    ScanFrom(b, f, 0)
  }

  /** A uniformly random element, the randomness given as `roll`. */
  function Pick(ps: seq<Pos>, roll: nat): (p: Option<Pos>)
    ensures p.None? <==> |ps| == 0
    ensures p.Some? ==> p.value in ps
  {
    if |ps| == 0 then None else Some(ps[roll % |ps|])
  }

  /** A random cell without occupant (a player's start), or None when every
      cell is occupied. */
  function RandomFreePosition(b: BoardState, roll: nat): (p: Option<Pos>)
    requires WellFormed(b)
    ensures p.None? <==> forall r, c :: IsValid(b, r, c) ==> At(b, r, c).occupant.Some?
    ensures p.Some? ==> IsValid(b, p.value.row, p.value.col) && At(b, p.value.row, p.value.col).occupant.None?
  {
    var ps := Scan(b, Unoccupied);
    assert forall r, c :: IsValid(b, r, c) && At(b, r, c).occupant.None? ==> Pos(r, c) in ps;
    Pick(ps, roll)
  }

  /** A random cell with neither occupant nor item (a spawner's drop), or
      None when there is none. */
  function RandomFreeSpot(b: BoardState, roll: nat): (p: Option<Pos>)
    requires WellFormed(b)
    ensures p.None? <==> forall r, c :: IsValid(b, r, c) ==> !Admits(Vacant, At(b, r, c))
    ensures p.Some? ==> IsValid(b, p.value.row, p.value.col) && Admits(Vacant, At(b, p.value.row, p.value.col))
  {
    var ps := Scan(b, Vacant);
    assert forall r, c :: IsValid(b, r, c) && Admits(Vacant, At(b, r, c)) ==> Pos(r, c) in ps;
    Pick(ps, roll)
  }

  // ---------------------------------------------------------------------
  // Placing items

  /** Writes an item of `kind` and quantity `qty` on a random vacant cell
      and raises the counters of that kind; fails, changing nothing, when
      no cell is vacant. Shared by the three placements, which differ only
      in their cap test and quantity. */
  function Drop(b: BoardState, kind: ItemType, qty: int, roll: nat): (r: (BoardState, bool))
    requires WellFormed(b)
    ensures WellFormed(r.0) && r.0.size == b.size
    ensures r.1 <==> RandomFreeSpot(b, roll).Some?
    ensures !r.1 ==> r.0 == b
    ensures r.1 ==> var p := RandomFreeSpot(b, roll).value;
      && SameElsewhere(b, r.0, p.row, p.col)
      && At(r.0, p.row, p.col) == At(b, p.row, p.col).(item := Some(kind), quantity := qty)
  {
    match RandomFreeSpot(b, roll)
    case None => (b, false)
    case Some(p) =>
      var counted :=
        match kind
        case Coin => b.(coinsCount := b.coinsCount + qty, coinCells := b.coinCells + 1)
        case Life => b.(livesCount := b.livesCount + 1)
        case Trap => b.(trapsCount := b.trapsCount + 1);
      var cell := At(b, p.row, p.col);
      (Put(counted, p.row, p.col, cell.(item := Some(kind), quantity := qty)), true)
  }

  function PlaceLife(b: BoardState, roll: nat): (r: (BoardState, bool))
    requires WellFormed(b)
    ensures WellFormed(r.0) && r.0.size == b.size
    ensures r.1 <==> RandomFreeSpot(b, roll).Some?
    ensures !r.1 ==> r.0 == b
    ensures r.1 ==> (r.0.livesCount == b.livesCount + 1
      && r.0.coinsCount == b.coinsCount && r.0.coinCells == b.coinCells && r.0.trapsCount == b.trapsCount)
    ensures r.1 ==> var p := RandomFreeSpot(b, roll).value;
      && SameElsewhere(b, r.0, p.row, p.col)
      && At(r.0, p.row, p.col) == At(b, p.row, p.col).(item := Some(Life), quantity := 1)
  {
    Drop(b, Life, 1, roll)
  }

  /** The coin amount an amount roll selects. */
  function CoinAmount(amountRoll: nat): (v: int)
    ensures v in CoinAmounts
  {
    CoinAmounts[amountRoll % |CoinAmounts|]
  }

  /** Every amount of the list is drawn, by the roll at its index. */
  lemma CoinAmountDrawsEvery(v: int)
    requires v in CoinAmounts
    ensures exists roll: nat :: roll < |CoinAmounts| && CoinAmount(roll) == v
  {
    var i :| 0 <= i < |CoinAmounts| && CoinAmounts[i] == v;
    assert CoinAmount(i) == v;
  }

  /** Refuses, changing nothing, at the 10% cap; otherwise drops a coin of
      one of the amounts 1, 2, 5, 10 on a vacant cell. */
  function PlaceCoins(b: BoardState, roll: nat, amountRoll: nat): (r: (BoardState, bool))
    requires WellFormed(b)
    ensures WellFormed(r.0) && r.0.size == b.size
    ensures !CanPlaceCoins(b) ==> r == (b, false)
    ensures r.1 <==> CanPlaceCoins(b) && RandomFreeSpot(b, roll).Some?
    ensures !r.1 ==> r.0 == b
    ensures r.1 ==> RandomFreeSpot(b, roll).Some? && var p := RandomFreeSpot(b, roll).value;
      && At(b, p.row, p.col).occupant.None? && At(b, p.row, p.col).item.None?
      && At(r.0, p.row, p.col).item == Some(Coin)
      && At(r.0, p.row, p.col).quantity in CoinAmounts
      && r.0.coinsCount == b.coinsCount + At(r.0, p.row, p.col).quantity
      && r.0.coinCells == b.coinCells + 1
      && r.0.livesCount == b.livesCount && r.0.trapsCount == b.trapsCount
    ensures r.1 ==> var p := RandomFreeSpot(b, roll).value;
      && SameElsewhere(b, r.0, p.row, p.col)
      && At(r.0, p.row, p.col) == At(b, p.row, p.col).(item := Some(Coin), quantity := CoinAmount(amountRoll))
  {
    if !CanPlaceCoins(b) then (b, false)
    else Drop(b, Coin, CoinAmount(amountRoll), roll)
  }

  /** Refuses, changing nothing, at the 10% cap; otherwise drops a trap. */
  function PlaceTrap(b: BoardState, roll: nat): (r: (BoardState, bool))
    requires WellFormed(b)
    ensures WellFormed(r.0) && r.0.size == b.size
    ensures !CanPlaceTraps(b) ==> r == (b, false)
    ensures r.1 <==> CanPlaceTraps(b) && RandomFreeSpot(b, roll).Some?
    ensures !r.1 ==> r.0 == b
    ensures r.1 ==> (r.0.trapsCount == b.trapsCount + 1
      && r.0.coinsCount == b.coinsCount && r.0.coinCells == b.coinCells && r.0.livesCount == b.livesCount)
    ensures r.1 ==> var p := RandomFreeSpot(b, roll).value;
      && SameElsewhere(b, r.0, p.row, p.col)
      && At(r.0, p.row, p.col) == At(b, p.row, p.col).(item := Some(Trap), quantity := 1)
  {
    if !CanPlaceTraps(b) then (b, false)
    else Drop(b, Trap, 1, roll)
  }

  // ---------------------------------------------------------------------
  // The invariants are kept by every operation

  lemma TryOccupyKeepsInv(b: BoardState, row: int, col: int, who: ActorId)
    requires Inv(b)
    ensures Inv(TryOccupy(b, row, col, who).0)
  {
    var r := TryOccupy(b, row, col, who);
    if r.1 {
      forall m: Measure
        ensures GridTotal(r.0.grid, m) == GridTotal(b.grid, m)
      {
        PutTotal(b, row, col, At(r.0, row, col), m);
      }
    }
  }

  lemma ReleaseKeepsInv(b: BoardState, row: int, col: int, who: ActorId)
    requires Inv(b)
    ensures Inv(Release(b, row, col, who))
  {
    var r := Release(b, row, col, who);
    if IsValid(b, row, col) {
      forall m: Measure
        ensures GridTotal(r.grid, m) == GridTotal(b.grid, m)
      {
        PutTotal(b, row, col, At(r, row, col), m);
      }
    }
  }

  lemma CollectKeepsInv(b: BoardState, row: int, col: int)
    requires Inv(b)
    ensures Inv(Collect(b, row, col).0)
    ensures CapsHold(b) ==> CapsHold(Collect(b, row, col).0)
    ensures Collect(b, row, col).0.trapsCount == b.trapsCount
  {
    var r := Collect(b, row, col);
    if r.1.Some? {
      var cell := At(b, row, col);
      var cleared := At(r.0, row, col);
      forall m: Measure
        ensures GridTotal(r.0.grid, m) == GridTotal(b.grid, m) - Weight(cell, m)
      {
        GridTotalUpdate(b.grid, row, col, cleared, m);
      }
    }
  }

  lemma DropKeepsInv(b: BoardState, kind: ItemType, qty: int, roll: nat)
    requires Inv(b)
    requires kind == Coin ==> qty in CoinAmounts
    requires kind != Coin ==> qty == 1
    ensures Inv(Drop(b, kind, qty, roll).0)
  {
    var r := Drop(b, kind, qty, roll);
    if r.1 {
      var p := RandomFreeSpot(b, roll).value;
      var cell := At(b, p.row, p.col);
      forall m: Measure
        ensures GridTotal(r.0.grid, m) == GridTotal(b.grid, m) + Weight(At(r.0, p.row, p.col), m)
      {
        GridTotalUpdate(b.grid, p.row, p.col, At(r.0, p.row, p.col), m);
      }
    }
  }

  lemma PlaceLifeKeepsInv(b: BoardState, roll: nat)
    requires Inv(b)
    ensures Inv(PlaceLife(b, roll).0)
    ensures CapsHold(b) ==> CapsHold(PlaceLife(b, roll).0)
  {
    DropKeepsInv(b, Life, 1, roll);
  }

  lemma PlaceCoinsKeepsInv(b: BoardState, roll: nat, amountRoll: nat)
    requires Inv(b)
    ensures Inv(PlaceCoins(b, roll, amountRoll).0)
    ensures CapsHold(b) ==> CapsHold(PlaceCoins(b, roll, amountRoll).0)
  {
    if CanPlaceCoins(b) {
      DropKeepsInv(b, Coin, CoinAmount(amountRoll), roll);
      CapIsCeiling(b.coinCells, b.size);
    }
  }

  lemma PlaceTrapKeepsInv(b: BoardState, roll: nat)
    requires Inv(b)
    ensures Inv(PlaceTrap(b, roll).0)
    ensures CapsHold(b) ==> CapsHold(PlaceTrap(b, roll).0)
  {
    if CanPlaceTraps(b) {
      DropKeepsInv(b, Trap, 1, roll);
      CapIsCeiling(b.trapsCount, b.size);
    }
  }

  /** Collecting a coin just placed undoes the placement exactly. */
  lemma PlaceCoinsCollectRoundTrip(b: BoardState, roll: nat, amountRoll: nat)
    requires Inv(b)
    requires PlaceCoins(b, roll, amountRoll).1
    ensures var p := RandomFreeSpot(b, roll).value;
      Collect(PlaceCoins(b, roll, amountRoll).0, p.row, p.col) == (b, Some(Coin))
  {
    var p := RandomFreeSpot(b, roll).value;
    var cell := At(b, p.row, p.col);
    var b' := PlaceCoins(b, roll, amountRoll).0;
    var counted := b.(coinsCount := b.coinsCount + CoinAmount(amountRoll), coinCells := b.coinCells + 1);
    var placed := cell.(item := Some(Coin), quantity := CoinAmount(amountRoll));
    assert b' == Put(counted, p.row, p.col, placed);
    var back := b'.(coinsCount := b.coinsCount, coinCells := b.coinCells);
    assert cell == placed.(item := None, quantity := 0);
    assert Collect(b', p.row, p.col).0 == Put(back, p.row, p.col, cell);
    PutPut(b, p.row, p.col, placed, cell);
    PutSame(b, p.row, p.col);
  }
}

=== FILE: game.dfy ===
/** The orchestration of rounds: registration, the cohort each round plays
    with, the monitor's end condition, the winner, and the top-up of an
    incomplete last group. Console prompts become answer strings, the clock
    becomes the elapsed time each monitor poll reads, and the threads of a
    round are not modelled here. */
module Game {
  import opened Wrappers
  import opened Player

  /** Players per round; extra players register in groups of this size. */
  const MinPlayers: nat := 3
  /** Milliseconds a round may last. */
  const GameTimeLimit: int := 60000

  /** Registered players, in registration order. */
  type Registry = seq<PlayerState>

  /** Player ids are 1, 2, 3, ... in registration order. */
  ghost predicate ConsecutiveIds(reg: Registry) {
    forall i :: 0 <= i < |reg| ==> reg[i].id == i + 1
  }

  // ---------------------------------------------------------------------
  // Registration

  /** Registers one more player, with the next id. */
  function AddPlayerToRegistry(reg: Registry): (r: Registry)
    ensures |r| == |reg| + 1 && r[..|reg|] == reg
    ensures r[|reg|] == NewPlayer(|reg| + 1)
    ensures ConsecutiveIds(reg) ==> ConsecutiveIds(r)
  {
    reg + [NewPlayer(|reg| + 1)]
  }

  /** Registers `n` more players, one after the other. */
  function AddPlayers(reg: Registry, n: nat): (r: Registry)
    decreases n
    ensures |r| == |reg| + n && r[..|reg|] == reg
    ensures forall i :: |reg| <= i < |r| ==> r[i] == NewPlayer(i + 1)
    ensures ConsecutiveIds(reg) ==> ConsecutiveIds(r)
  {
    if n == 0 then reg else AddPlayers(AddPlayerToRegistry(reg), n - 1)
  }

  /** An operator's answer to a yes/no prompt, compared after lower-casing. */
  datatype Answer = Yes | No | Other

  function ReadAnswer(s: string): (a: Answer)
    ensures a == Yes <==> s == "y" || s == "Y"
    ensures a == No <==> s == "n" || s == "N"
  {
    if s == "y" || s == "Y" then Yes
    else if s == "n" || s == "N" then No
    else Other
  }

  /** The registration loop over the operator's answers: "y" registers a
      player, "n" ends registration once at least MinPlayers are registered,
      anything else asks again. None when the answers run out first. */
  function Register(reg: Registry, answers: seq<string>): (r: Option<Registry>)
    decreases |answers|
    ensures r.Some? ==> |r.value| >= MinPlayers
    ensures r.Some? ==> |r.value| >= |reg| && r.value[..|reg|] == reg
    ensures r.Some? ==> forall i :: |reg| <= i < |r.value| ==> r.value[i] == NewPlayer(i + 1)
    ensures r.Some? && ConsecutiveIds(reg) ==> ConsecutiveIds(r.value)
  {
    if |answers| == 0 then None
    else
      match ReadAnswer(answers[0])
      case Yes => Register(AddPlayerToRegistry(reg), answers[1..])
      case No => if |reg| >= MinPlayers then Some(reg) else Register(reg, answers[1..])
      case Other => Register(reg, answers[1..])
  }

  /** Answer `k` ends registration: it is "n", the players registered by
      then reach the minimum, and no earlier "n" found enough. */
  ghost predicate StopsAt(reg: Registry, answers: seq<string>, k: int) {
    0 <= k < |answers| && ReadAnswer(answers[k]) == No
    && |reg| + YesCount(answers[..k]) >= MinPlayers
    && forall j :: 0 <= j < k && ReadAnswer(answers[j]) == No ==> |reg| + YesCount(answers[..j]) < MinPlayers
  }

  /** The answer after the first one stops registration for the registry
      the first answer leaves. */
  lemma StopsAtShift(reg: Registry, answers: seq<string>, k: nat)
    requires |answers| > 0 && (ReadAnswer(answers[0]) != No || |reg| < MinPlayers)
    ensures var next := if ReadAnswer(answers[0]) == Yes then AddPlayerToRegistry(reg) else reg;
      StopsAt(reg, answers, k + 1) <==> StopsAt(next, answers[1..], k)
  {
    var rest := answers[1..];
    var next := if ReadAnswer(answers[0]) == Yes then AddPlayerToRegistry(reg) else reg;
    forall j | 0 <= j < |rest|
      ensures |reg| + YesCount(answers[..j + 1]) == |next| + YesCount(rest[..j])
    {
      YesCountShift(answers, j);
    }
    assert forall j :: 0 <= j < |rest| ==> answers[j + 1] == rest[j];
    if StopsAt(reg, answers, k + 1) {
      forall j | 0 <= j < k && ReadAnswer(rest[j]) == No
        ensures |next| + YesCount(rest[..j]) < MinPlayers
      {
        assert ReadAnswer(answers[j + 1]) == No;
      }
    }
    if StopsAt(next, rest, k) {
      forall j | 0 <= j < k + 1 && ReadAnswer(answers[j]) == No
        ensures |reg| + YesCount(answers[..j]) < MinPlayers
      {
        if j == 0 {
          assert answers[..0] == [];
        } else {
          assert ReadAnswer(rest[j - 1]) == No;
        }
      }
    }
  }

  /** Registration ends exactly at the first "n" that finds enough players,
      having registered one player per "y" before it. */
  lemma {:induction false} RegisterCountsYes(reg: Registry, answers: seq<string>)
    ensures var r := Register(reg, answers);
      r.Some? ==> exists k :: StopsAt(reg, answers, k) && |r.value| == |reg| + YesCount(answers[..k])
    ensures (exists k :: StopsAt(reg, answers, k)) ==> Register(reg, answers).Some?
    decreases |answers|
  {
    if |answers| > 0 {
      var a := ReadAnswer(answers[0]);
      if a == No && |reg| >= MinPlayers {
        assert answers[..0] == [];
        assert StopsAt(reg, answers, 0);
      } else {
        var rest := answers[1..];
        var next := if a == Yes then AddPlayerToRegistry(reg) else reg;
        assert Register(reg, answers) == Register(next, rest);
        RegisterCountsYes(next, rest);
        var r := Register(next, rest);
        if r.Some? {
          var k :| StopsAt(next, rest, k) && |r.value| == |next| + YesCount(rest[..k]);
          StopsAtShift(reg, answers, k);
          YesCountShift(answers, k);
          assert StopsAt(reg, answers, k + 1);
        }
        if exists k :: StopsAt(reg, answers, k) {
          var k :| StopsAt(reg, answers, k);
          if k > 0 {
            StopsAtShift(reg, answers, k - 1);
          }
        }
      }
    }
  }

  /** Counting the "y" answers of a prefix one answer longer. */
  lemma YesCountShift(answers: seq<string>, k: nat)
    requires k < |answers|
    ensures YesCount(answers[..k + 1])
      == (if ReadAnswer(answers[0]) == Yes then 1 else 0) + YesCount(answers[1..][..k])
  {
    assert answers[..k + 1][1..] == answers[1..][..k];
  }

  /** How many of the answers are "y". */
  function YesCount(answers: seq<string>): (n: nat)
    ensures n <= |answers|
  {
    if |answers| == 0 then 0
    else (if ReadAnswer(answers[0]) == Yes then 1 else 0) + YesCount(answers[1..])
  }

  // ---------------------------------------------------------------------
  // Rounds and cohorts

  /** Round `g` (counted from 1) can be played: at least MinPlayers have not
      played yet. */
  predicate HasEnoughPlayers(registered: nat, g: int): (ok: bool)
    ensures ok <==> registered >= g * MinPlayers
  {
    registered - (g - 1) * MinPlayers >= MinPlayers
  }

  function Min(a: int, b: int): int {
    if a <= b then a else b
  }

  /** The players of round `g`: registry indices from (g-1)*MinPlayers up to
      g*MinPlayers or the end of the registry, each rebuilt with its id and a
      fresh state. */
  function Cohort(reg: Registry, g: int): (c: seq<PlayerState>)
    requires g >= 1 && ConsecutiveIds(reg)
    ensures var start := (g - 1) * MinPlayers;
      |c| == (if start < |reg| then Min(start + MinPlayers, |reg|) - start else 0)
    ensures forall k :: 0 <= k < |c| ==> c[k] == NewPlayer((g - 1) * MinPlayers + k + 1)
    ensures forall k :: 0 <= k < |c| ==> c[k].id == reg[(g - 1) * MinPlayers + k].id
    ensures HasEnoughPlayers(|reg|, g) ==> |c| == MinPlayers
  {
    var start := (g - 1) * MinPlayers;
    var stop := Min(start + MinPlayers, |reg|);
    if start < stop then CohortFrom(reg, start, stop) else []
  }

  function CohortFrom(reg: Registry, i: nat, stop: nat): (c: seq<PlayerState>)
    requires i <= stop <= |reg| && ConsecutiveIds(reg)
    decreases stop - i
    ensures |c| == stop - i
    ensures forall k :: 0 <= k < |c| ==> c[k] == NewPlayer(reg[i + k].id) && reg[i + k].id == i + k + 1
  {
    if i == stop then [] else [NewPlayer(reg[i].id)] + CohortFrom(reg, i + 1, stop)
  }

  /** The players waiting while round `g` is played: indices g*MinPlayers onward. */
  function Waiting(reg: Registry, g: int): (w: seq<PlayerState>)
    requires g >= 1
    ensures |w| == if g * MinPlayers <= |reg| then |reg| - g * MinPlayers else 0
    ensures forall k :: 0 <= k < |w| ==> w[k] == reg[g * MinPlayers + k]
  {
    if g * MinPlayers <= |reg| then reg[g * MinPlayers..] else []
  }

  /** Two different rounds never share a player. */
  lemma CohortsDisjoint(reg: Registry, g: int, h: int)
    requires 1 <= g < h && ConsecutiveIds(reg)
    ensures forall p, q :: p in Cohort(reg, g) && q in Cohort(reg, h) ==> p.id < q.id
  {
    var c := Cohort(reg, g);
    var d := Cohort(reg, h);
    forall p, q | p in c && q in d
      ensures p.id < q.id
    {
      var k :| 0 <= k < |c| && c[k] == p;
      var m :| 0 <= m < |d| && d[m] == q;
      assert p.id == (g - 1) * MinPlayers + k + 1;
      assert q.id == (h - 1) * MinPlayers + m + 1;
      assert (g - 1) * MinPlayers + MinPlayers <= (h - 1) * MinPlayers;
    }
  }

  /** While round `g` is played, its cohort and the waiting players together
      are exactly the players that have not played yet, in order. */
  lemma CohortThenWaiting(reg: Registry, g: int)
    requires g >= 1 && ConsecutiveIds(reg) && HasEnoughPlayers(|reg|, g)
    ensures var c := Cohort(reg, g); var w := Waiting(reg, g);
      |c| + |w| == |reg| - (g - 1) * MinPlayers
      && (forall k :: 0 <= k < |c| ==> c[k].id == reg[(g - 1) * MinPlayers + k].id)
      && (forall k :: 0 <= k < |w| ==> w[k] == reg[(g - 1) * MinPlayers + MinPlayers + k])
  {
  }

  // ---------------------------------------------------------------------
  // Monitoring and results

  datatype EndReason = TimeLimit | LastStanding

  /** How many of the players are alive. */
  function AliveCount(ps: seq<PlayerState>): (n: nat)
    ensures n <= |ps|
    ensures n == 0 <==> forall i :: 0 <= i < |ps| ==> !ps[i].alive
  {
    if |ps| == 0 then 0 else (if ps[0].alive then 1 else 0) + AliveCount(ps[1..])
  }

  /** At most one alive player is the same as no two distinct alive players. */
  lemma {:induction false} AtMostOneAlive(ps: seq<PlayerState>)
    ensures AliveCount(ps) <= 1 <==>
      forall i, j :: 0 <= i < |ps| && 0 <= j < |ps| && ps[i].alive && ps[j].alive ==> i == j
  {
    if |ps| > 0 {
      var rest := ps[1..];
      assert forall k :: 1 <= k < |ps| ==> ps[k] == rest[k - 1];
      AtMostOneAlive(rest);
      if ps[0].alive && AliveCount(rest) >= 1 {
        var j :| 0 <= j < |rest| && rest[j].alive;
        assert ps[j + 1].alive;
      }
    }
  }

  /** What one poll of the monitor decides, the time limit checked first. */
  function Verdict(elapsed: int, players: seq<PlayerState>): (v: Option<EndReason>)
    ensures v == Some(TimeLimit) <==> elapsed >= GameTimeLimit
    ensures v == Some(LastStanding) <==> elapsed < GameTimeLimit && AliveCount(players) <= 1
    ensures v.None? <==> elapsed < GameTimeLimit && AliveCount(players) >= 2
  {
    if elapsed >= GameTimeLimit then Some(TimeLimit)
    else if AliveCount(players) <= 1 then Some(LastStanding)
    else None
  }

  /** One wake-up of the monitor: the elapsed time and the players' states. */
  datatype Poll = Poll(elapsed: int, players: seq<PlayerState>)

  /** The monitor loop: the index of the first poll that ends the round, and
      why, or None when no poll does. */
  method Monitor(polls: seq<Poll>) returns (stop: Option<(nat, EndReason)>)
    ensures stop.Some? ==> (stop.value.0 < |polls|
      && Verdict(polls[stop.value.0].elapsed, polls[stop.value.0].players) == Some(stop.value.1))
    ensures stop.Some? ==> forall k :: 0 <= k < stop.value.0 ==> Verdict(polls[k].elapsed, polls[k].players).None?
    ensures stop.None? <==> forall k :: 0 <= k < |polls| ==> Verdict(polls[k].elapsed, polls[k].players).None?
  {
    var k := 0;
    while k < |polls|
      invariant k <= |polls|
      invariant forall j :: 0 <= j < k ==> Verdict(polls[j].elapsed, polls[j].players).None?
    {
      var v := Verdict(polls[k].elapsed, polls[k].players);
      if v.Some? {
        return Some((k, v.value));
      }
      k := k + 1;
    }
    return None;
  }

  /** The winner: the first alive player with strictly the most coins, the
      running best starting below zero. None when no alive player has a
      non-negative coin count. */
  method Winner(players: seq<PlayerState>) returns (w: Option<nat>)
    ensures w.Some? ==> w.value < |players| && players[w.value].alive && players[w.value].coins >= 0
    ensures w.Some? ==> forall j :: 0 <= j < |players| && players[j].alive ==> players[j].coins <= players[w.value].coins
    ensures w.Some? ==> forall j :: 0 <= j < w.value && players[j].alive ==> players[j].coins < players[w.value].coins
    ensures w.None? <==> forall j :: 0 <= j < |players| && players[j].alive ==> players[j].coins < 0
  {
    w := None;
    var maxCoins := -1;
    var i := 0;
    while i < |players|
      invariant i <= |players|
      invariant w.None? ==> maxCoins == -1
      invariant w.Some? ==> w.value < i && players[w.value].alive && maxCoins == players[w.value].coins >= 0
      invariant forall j :: 0 <= j < i && players[j].alive ==> players[j].coins <= maxCoins
      invariant w.Some? ==> forall j :: 0 <= j < w.value && players[j].alive ==> players[j].coins < maxCoins
    {
      var p := players[i];
      if p.alive && p.coins > maxCoins {
        maxCoins := p.coins;
        w := Some(i);
      }
      i := i + 1;
    }
  }

  /** Coins are never negative in play, so there is no winner exactly when
      nobody is alive, and a player left alive with no coins wins. */
  method WinnerWhenCoinsNonNegative(players: seq<PlayerState>) returns (w: Option<nat>)
    requires forall j :: 0 <= j < |players| ==> players[j].coins >= 0
    ensures w.None? <==> AliveCount(players) == 0
    ensures w.Some? ==> w.value < |players| && players[w.value].alive
  {
    w := Winner(players);
  }

  /** The end of round `g`: every player is stopped, the winner is chosen and
      the round number advances by one. */
  method EndGame(g: int, players: seq<PlayerState>) returns (next: int, stopped: seq<PlayerState>, w: Option<nat>)
    ensures next == g + 1
    ensures |stopped| == |players|
    ensures forall k :: 0 <= k < |players| ==> stopped[k] == players[k].(active := false)
    ensures w.Some? ==> w.value < |players| && players[w.value].alive && players[w.value].coins >= 0
    ensures w.Some? ==> forall j :: 0 <= j < |players| && players[j].alive ==> players[j].coins <= players[w.value].coins
    ensures w.Some? ==> forall j :: 0 <= j < w.value && players[j].alive ==> players[j].coins < players[w.value].coins
    ensures w.None? <==> forall j :: 0 <= j < |players| && players[j].alive ==> players[j].coins < 0
  {
    stopped := [];
    var k := 0;
    while k < |players|
      invariant k <= |players| && |stopped| == k
      invariant forall j :: 0 <= j < k ==> stopped[j] == players[j].(active := false)
    {
      stopped := stopped + [StopGame(players[k])];
      k := k + 1;
    }
    w := Winner(players);
    next := g + 1;
  }

  // ---------------------------------------------------------------------
  // Next round

  /** Asked after round g-1 has ended (`g` already advanced): with enough
      players left, play on when the operator says "y"; with an incomplete
      group left, "y" registers the missing players and plays on; with
      nobody left, stop. */
  function AskForNextGame(reg: Registry, g: int, answer: string): (r: (Registry, bool))
    ensures r.1 ==> HasEnoughPlayers(|r.0|, g)
    ensures |r.0| >= |reg| && r.0[..|reg|] == reg
    ensures forall i :: |reg| <= i < |r.0| ==> r.0[i] == NewPlayer(i + 1)
    ensures ConsecutiveIds(reg) ==> ConsecutiveIds(r.0)
    ensures r.1 <==> ReadAnswer(answer) == Yes && |reg| - (g - 1) * MinPlayers > 0
    ensures |r.0| > |reg| <==> ReadAnswer(answer) == Yes && 0 < |reg| - (g - 1) * MinPlayers < MinPlayers
    ensures |r.0| > |reg| ==> |r.0| == (g - 1) * MinPlayers + MinPlayers
  {
    var left := |reg| - (g - 1) * MinPlayers;
    if left >= MinPlayers then (reg, ReadAnswer(answer) == Yes)
    else if left > 0 then
      if ReadAnswer(answer) == Yes then (AddPlayers(reg, MinPlayers - left), true)
      else (reg, false)
    else (reg, false)
  }

  /** The cohorts of rounds 1 .. |cohorts| are the consecutive full groups
      of registered players. */
  ghost predicate RoundsPlayed(cohorts: seq<seq<PlayerState>>) {
    && (forall n :: 0 <= n < |cohorts| ==> |cohorts[n]| == MinPlayers)
    && (forall n, k :: 0 <= n < |cohorts| && 0 <= k < |cohorts[n]| ==>
      cohorts[n][k] == NewPlayer(n * MinPlayers + k + 1))
  }

  /** Playing the next round adds the next full group to the rounds played. */
  lemma AppendCohort(reg: Registry, cohorts: seq<seq<PlayerState>>)
    requires ConsecutiveIds(reg) && RoundsPlayed(cohorts)
    requires HasEnoughPlayers(|reg|, |cohorts| + 1)
    ensures RoundsPlayed(cohorts + [Cohort(reg, |cohorts| + 1)])
  {
    var c := Cohort(reg, |cohorts| + 1);
    var all := cohorts + [c];
    forall n, k | 0 <= n < |all| && 0 <= k < |all[n]|
      ensures all[n][k] == NewPlayer(n * MinPlayers + k + 1)
    {
      if n == |cohorts| {
        assert all[n] == c;
      }
    }
  }

  /** The whole session after registration: rounds 1, 2, ... are played while
      enough players are left, each followed by the question whether to go
      on. Returns the cohorts played, in order: the first round is played
      exactly when the registry holds a full group, every later round
      follows a "y", and the session ends with answers left only on a
      refusal or when no full group remains. */
  method Session(reg0: Registry, answers: seq<string>) returns (reg: Registry, cohorts: seq<seq<PlayerState>>)
    requires ConsecutiveIds(reg0)
    ensures ConsecutiveIds(reg) && |reg| >= |reg0| && reg[..|reg0|] == reg0
    ensures |cohorts| <= |answers| + 1
    ensures forall n :: 0 <= n < |cohorts| ==> |cohorts[n]| == MinPlayers
    ensures forall n, k :: 0 <= n < |cohorts| && 0 <= k < |cohorts[n]| ==>
      cohorts[n][k] == NewPlayer(n * MinPlayers + k + 1)
    ensures |cohorts| >= 1 <==> HasEnoughPlayers(|reg0|, 1)
    ensures forall n :: 0 <= n < |cohorts| - 1 ==> ReadAnswer(answers[n]) == Yes
    ensures 1 <= |cohorts| <= |answers| ==>
      ReadAnswer(answers[|cohorts| - 1]) != Yes || !HasEnoughPlayers(|reg|, |cohorts| + 1)
  {
    reg := reg0;
    cohorts := [];
    while HasEnoughPlayers(|reg|, |cohorts| + 1)
      invariant |cohorts| <= |answers|
      invariant ConsecutiveIds(reg) && |reg| >= |reg0| && reg[..|reg0|] == reg0
      invariant RoundsPlayed(cohorts)
      invariant |cohorts| == 0 ==> reg == reg0
      invariant |cohorts| >= 1 ==> HasEnoughPlayers(|reg0|, 1)
      invariant forall n :: 0 <= n < |cohorts| - 1 ==> ReadAnswer(answers[n]) == Yes
      invariant |cohorts| >= 1 ==> ReadAnswer(answers[|cohorts| - 1]) == Yes
      decreases |answers| - |cohorts|
    {
      // Round g = |cohorts| + 1 is played, then the operator is asked
      // about round g + 1.
      AppendCohort(reg, cohorts);
      cohorts := cohorts + [Cohort(reg, |cohorts| + 1)];
      if |cohorts| > |answers| {
        break;
      }
      var (next, goOn) := AskForNextGame(reg, |cohorts| + 1, answers[|cohorts| - 1]);
      assert next[..|reg0|] == reg[..|reg0|];
      reg := next;
      if !goOn {
        break;
      }
    }
  }
}

=== FILE: player.dfy ===
/** A player's turn, planned over a snapshot of the board: the coin targets
    sorted by Manhattan distance, straight-line paths toward a target, the
    fixed-order fallback walk, and the step-by-step execution of the chosen
    path with release, occupy and revert. Sleeps and the journal calls are
    not modelled; the dice, the start-cell choice and the round's active
    flag are parameters. */
module Player {
  import opened Wrappers
  import opened Board

  /** How many distinct player markers there are. */
  const MarkerCount: nat := 12
  /** Lives a player starts a round with. */
  const InitialLives: int := 2
  /** How many times a player tries to find a start cell. */
  const StartAttempts: nat := 5

  datatype PlayerState = PlayerState(
    id: int,
    marker: nat,
    lives: int,
    coins: int,
    alive: bool,
    active: bool,
    pos: Option<Pos>)

  /** The marker of a player: ids 1..12 get markers 0..11, then they repeat. */
  function MarkerIndex(id: int): (k: nat)
    requires id >= 1
    ensures k < MarkerCount
    ensures (id - 1 - k) % MarkerCount == 0
  {
    (id - 1) % MarkerCount
  }

  /** Twelve consecutive ids get twelve distinct markers. */
  lemma MarkersDistinct(i: int, j: int)
    requires 1 <= i < j < i + MarkerCount
    ensures MarkerIndex(i) != MarkerIndex(j)
  {
    var q := (i - 1) / MarkerCount;
    var q' := (j - 1) / MarkerCount;
    assert i - 1 == q * MarkerCount + MarkerIndex(i);
    assert j - 1 == q' * MarkerCount + MarkerIndex(j);
    assert MarkerIndex(j) == MarkerIndex(i) ==> (q' - q) * MarkerCount == j - i;
  }

  /** A player as registered or as rebuilt for a new round: full lives, no
      coins, alive, waiting for the round to start, on no cell. */
  function NewPlayer(id: int): (p: PlayerState)
    requires id >= 1
    ensures p.id == id && p.marker == MarkerIndex(id)
    ensures p.lives == InitialLives && p.coins == 0 && p.alive && !p.active && p.pos.None?
  {
    PlayerState(id, MarkerIndex(id), InitialLives, 0, true, false, None)
  }

  function StartGame(p: PlayerState): (r: PlayerState)
    ensures r.active && r == p.(active := true)
  {
    p.(active := true)
  }

  function StopGame(p: PlayerState): (r: PlayerState)
    ensures !r.active && r == p.(active := false)
  {
    p.(active := false)
  }

  /** The face a dice roll shows. */
  function Dice(roll: nat): (d: nat)
    ensures 1 <= d <= 6
  {
    roll % 6 + 1
  }

  /** Every face can come up. */
  lemma DiceCoversFaces(d: nat)
    requires 1 <= d <= 6
    ensures Dice(d - 1) == d
  {
  }

  // ---------------------------------------------------------------------
  // Straight-line paths

  datatype Dir = Up | Down | Right | Left

  predicate IsVertical(d: Dir) {
    d == Up || d == Down
  }

  /** The cell k steps from p in direction d. */
  function Ahead(p: Pos, d: Dir, k: int): Pos {
    match d
    case Up => Pos(p.row - k, p.col)
    case Down => Pos(p.row + k, p.col)
    case Right => Pos(p.row, p.col + k)
    case Left => Pos(p.row, p.col - k)
  }

  function Abs(x: int): nat {
    if x < 0 then -x else x
  }

  function Manhattan(p: Pos, q: Pos): nat {
    Abs(p.row - q.row) + Abs(p.col - q.col)
  }

  /** A cell a player may step onto: in bounds and without occupant. */
  predicate Open(b: BoardState, p: Pos)
    requires WellFormed(b)
  {
    !IsOccupied(b, p.row, p.col)
  }

  function BuildFrom(b: BoardState, start: Pos, d: Dir, k: nat, maxSteps: nat): (path: seq<Pos>)
    requires WellFormed(b) && k >= 1
    decreases maxSteps + 1 - k
    ensures |path| == 0 || k + |path| <= maxSteps + 1
    ensures forall i :: 0 <= i < |path| ==> path[i] == Ahead(start, d, k + i) && Open(b, path[i])
    ensures k + |path| <= maxSteps ==> !Open(b, Ahead(start, d, k + |path|))
  {
    if k > maxSteps then []
    else if !Open(b, Ahead(start, d, k)) then []
    else [Ahead(start, d, k)] + BuildFrom(b, start, d, k + 1, maxSteps)
  }

  /** The longest run of open cells straight ahead of `start` in direction
      `d`, at most `maxSteps` long. */
  function BuildPath(b: BoardState, start: Pos, d: Dir, maxSteps: nat): (path: seq<Pos>)
    requires WellFormed(b)
    ensures |path| <= maxSteps
    ensures forall i :: 0 <= i < |path| ==> path[i] == Ahead(start, d, i + 1) && Open(b, path[i])
    ensures forall k :: 1 <= k <= |path| ==> Open(b, Ahead(start, d, k))
    ensures |path| < maxSteps ==> !Open(b, Ahead(start, d, |path| + 1))
    ensures path == [] <==> maxSteps == 0 || !Open(b, Ahead(start, d, 1))
  {
    var path := BuildFrom(b, start, d, 1, maxSteps);
    assert forall k :: 1 <= k <= |path| ==> path[k - 1] == Ahead(start, d, k);
    path
  }

  /** A run of open cells straight ahead of `start`, beginning k + 1 steps
      away (at the adjacent cell when k is 0). */
  ghost predicate OpenRun(b: BoardState, start: Pos, d: Dir, k: nat, q: seq<Pos>)
    requires WellFormed(b)
  {
    forall i :: 0 <= i < |q| ==> q[i] == Ahead(start, d, k + 1 + i) && Open(b, q[i])
  }

  /** BuildPath is the only open run that stops at the step bound or at the
      first blocked cell. */
  lemma BuildPathIsMaximalRun(b: BoardState, start: Pos, d: Dir, maxSteps: nat, q: seq<Pos>)
    requires WellFormed(b)
    requires OpenRun(b, start, d, 0, q) && |q| <= maxSteps
    requires |q| < maxSteps ==> !Open(b, Ahead(start, d, |q| + 1))
    ensures q == BuildPath(b, start, d, maxSteps)
  {
    var path := BuildPath(b, start, d, maxSteps);
    assert forall k :: 1 <= k <= |q| ==> q[k - 1] == Ahead(start, d, k) && Open(b, Ahead(start, d, k));
    assert |q| == |path|;
  }

  /** Consecutive cells of a path are neighbours, the first one a neighbour of the start. */
  lemma BuildPathIsConnected(b: BoardState, start: Pos, d: Dir, maxSteps: nat)
    requires WellFormed(b)
    ensures var path := BuildPath(b, start, d, maxSteps);
      (|path| > 0 ==> Manhattan(start, path[0]) == 1) &&
      forall i :: 0 <= i < |path| - 1 ==> Manhattan(path[i], path[i + 1]) == 1
  {
  }

  /** Index of the first direction whose path is not empty, or |dirs|. */
  function FirstOpenIndex(b: BoardState, start: Pos, dirs: seq<Dir>, maxSteps: nat): (i: nat)
    requires WellFormed(b)
    ensures i <= |dirs|
    ensures forall j :: 0 <= j < i ==> BuildPath(b, start, dirs[j], maxSteps) == []
    ensures i < |dirs| ==> BuildPath(b, start, dirs[i], maxSteps) != []
  {
    if |dirs| == 0 then 0
    else if BuildPath(b, start, dirs[0], maxSteps) != [] then 0
    else 1 + FirstOpenIndex(b, start, dirs[1..], maxSteps)
  }

  /** `path` is the path along `dirs[i]`, and no direction before it has one. */
  ghost predicate FirstOpenAt(b: BoardState, start: Pos, dirs: seq<Dir>, maxSteps: nat, i: int, path: seq<Pos>)
    requires WellFormed(b)
  {
    0 <= i < |dirs| && path == BuildPath(b, start, dirs[i], maxSteps)
    && forall j :: 0 <= j < i ==> BuildPath(b, start, dirs[j], maxSteps) == []
  }

  /** The path of the first direction, in the given order, that has one. */
  function FirstPath(b: BoardState, start: Pos, dirs: seq<Dir>, maxSteps: nat): (path: seq<Pos>)
    requires WellFormed(b)
    ensures path == [] <==> forall j :: 0 <= j < |dirs| ==> BuildPath(b, start, dirs[j], maxSteps) == []
    ensures path != [] ==> exists d :: d in dirs && path == BuildPath(b, start, d, maxSteps)
    ensures path != [] ==> exists i :: FirstOpenAt(b, start, dirs, maxSteps, i, path)
  {
    var i := FirstOpenIndex(b, start, dirs, maxSteps);
    if i < |dirs| then
      assert FirstOpenAt(b, start, dirs, maxSteps, i, BuildPath(b, start, dirs[i], maxSteps));
      BuildPath(b, start, dirs[i], maxSteps)
    else []
  }

  // ---------------------------------------------------------------------
  // Directions toward a target

  /** Stepping once in `d` brings `cur` closer to `target`. */
  predicate Closes(d: Dir, cur: Pos, target: Pos) {
    Manhattan(Ahead(cur, d, 1), target) < Manhattan(cur, target)
  }

  function Toward(diff: int, plus: Dir, minus: Dir): seq<Dir> {
    if diff > 0 then [plus] else if diff < 0 then [minus] else []
  }

  /** The directions tried toward a target: the ones closing a gap, the
      axis with the larger gap first, the vertical axis first on a tie. */
  function PlanDirections(cur: Pos, target: Pos): (ds: seq<Dir>)
    ensures forall d :: d in ds <==> Closes(d, cur, target)
    ensures |ds| <= 2
    ensures |ds| == 2 ==> ds[0] != ds[1]
    ensures |ds| == 2 ==> (IsVertical(ds[0]) <==> Abs(target.row - cur.row) >= Abs(target.col - cur.col))
    ensures ds == [] <==> cur == target
  {
    GapOrder(target.row - cur.row, target.col - cur.col)
  }

  /** Gap-closing directions for the given row and column gaps, larger gap first. */
  function GapOrder(rowDiff: int, colDiff: int): seq<Dir> {
    var vertical := Toward(rowDiff, Down, Up);
    var horizontal := Toward(colDiff, Right, Left);
    if Abs(rowDiff) >= Abs(colDiff) then vertical + horizontal else horizontal + vertical
  }

  /** The first non-empty straight path along a gap-closing direction. The
      path is not required to stop on, or even reach, the target. */
  function PlanPathToTarget(b: BoardState, cur: Pos, target: Pos, maxSteps: nat): (path: seq<Pos>)
    requires WellFormed(b)
    ensures path == [] <==> forall d :: Closes(d, cur, target) ==> BuildPath(b, cur, d, maxSteps) == []
    ensures path != [] ==> exists d :: Closes(d, cur, target) && path == BuildPath(b, cur, d, maxSteps)
    ensures path != [] ==> exists i :: FirstOpenAt(b, cur, PlanDirections(cur, target), maxSteps, i, path)
  {
    var ds := PlanDirections(cur, target);
    var path := FirstPath(b, cur, ds, maxSteps);
    assert forall d :: d in ds ==> exists j :: 0 <= j < |ds| && ds[j] == d;
    path
  }

  /** A direction with the size of the gap it closes. */
  datatype Heading = Heading(dir: Dir, benefit: int)

  /** Candidate headings in the order down, up, right, left. */
  function Headings(cur: Pos, target: Pos): seq<Heading> {
    GapHeadings(target.row - cur.row, target.col - cur.col)
  }

  function GapHeadings(rowDiff: int, colDiff: int): seq<Heading> {
    (if rowDiff > 0 then [Heading(Down, Abs(rowDiff))] else []) +
    (if rowDiff < 0 then [Heading(Up, Abs(rowDiff))] else []) +
    (if colDiff > 0 then [Heading(Right, Abs(colDiff))] else []) +
    (if colDiff < 0 then [Heading(Left, Abs(colDiff))] else [])
  }

  ghost predicate ByBenefit(hs: seq<Heading>) {
    forall i :: 0 <= i < |hs| - 1 ==> hs[i].benefit >= hs[i + 1].benefit
  }

  /** Inserts h after every heading of at least its benefit. */
  function InsertByBenefit(h: Heading, hs: seq<Heading>): (r: seq<Heading>)
    ensures multiset(r) == multiset(hs) + multiset{h}
    ensures |r| == |hs| + 1 && (r[0] == h || (|hs| > 0 && r[0] == hs[0]))
    ensures ByBenefit(hs) ==> ByBenefit(r)
  {
    if |hs| == 0 then [h]
    else if hs[0].benefit < h.benefit then [h] + hs
    else
      assert hs == [hs[0]] + hs[1..];
      [hs[0]] + InsertByBenefit(h, hs[1..])
  }

  /** Stable sort by descending benefit. */
  function SortByBenefit(hs: seq<Heading>): (r: seq<Heading>)
    ensures multiset(r) == multiset(hs)
    ensures |r| == |hs|
    ensures ByBenefit(r)
  {
    if |hs| == 0 then []
    else
      assert hs == hs[..|hs| - 1] + [hs[|hs| - 1]];
      InsertByBenefit(hs[|hs| - 1], SortByBenefit(hs[..|hs| - 1]))
  }

  /** On two headings the sort swaps them only for a strictly larger second benefit. */
  lemma SortTwoHeadings(g: Heading, h: Heading)
    ensures SortByBenefit([g, h]) == if g.benefit < h.benefit then [h, g] else [g, h]
  {
    assert [g, h][..1] == [g];
    assert SortByBenefit([g]) == [g];
  }

  function DirsOf(hs: seq<Heading>): (ds: seq<Dir>)
    ensures |ds| == |hs| && forall i :: 0 <= i < |hs| ==> ds[i] == hs[i].dir
  {
    if |hs| == 0 then [] else [hs[0].dir] + DirsOf(hs[1..])
  }

  /** The path that goes as far as possible along the direction closing
      the larger gap, or the other one. */
  function MoveTowardsTarget(b: BoardState, cur: Pos, target: Pos, maxSteps: nat): (path: seq<Pos>)
    requires WellFormed(b)
    ensures path == [] <==> forall d :: Closes(d, cur, target) ==> BuildPath(b, cur, d, maxSteps) == []
    ensures path != [] ==> exists i :: FirstOpenAt(b, cur, PlanDirections(cur, target), maxSteps, i, path)
  {
    HeadingOrderIsPlanOrder(cur, target);
    var ds := PlanDirections(cur, target);
    assert forall d :: d in ds ==> exists j :: 0 <= j < |ds| && ds[j] == d;
    FirstPath(b, cur, DirsOf(SortByBenefit(Headings(cur, target))), maxSteps)
  }

  /** Sorting the headings by benefit reproduces the plan's direction order:
      the stable sort keeps the vertical heading first on a tie. */
  lemma HeadingOrderIsPlanOrder(cur: Pos, target: Pos)
    ensures DirsOf(SortByBenefit(Headings(cur, target))) == PlanDirections(cur, target)
  {
    GapHeadingOrder(target.row - cur.row, target.col - cur.col);
  }

  lemma GapHeadingOrder(rowDiff: int, colDiff: int)
    ensures DirsOf(SortByBenefit(GapHeadings(rowDiff, colDiff))) == GapOrder(rowDiff, colDiff)
  {
    if rowDiff != 0 && colDiff != 0 {
      TwoGapsOrder(rowDiff, colDiff);
    } else {
      OneGapOrder(rowDiff, colDiff);
    }
  }

  lemma TwoGapsOrder(rowDiff: int, colDiff: int)
    requires rowDiff != 0 && colDiff != 0
    ensures DirsOf(SortByBenefit(GapHeadings(rowDiff, colDiff))) == GapOrder(rowDiff, colDiff)
  {
    var v := Heading(if rowDiff > 0 then Down else Up, Abs(rowDiff));
    var h := Heading(if colDiff > 0 then Right else Left, Abs(colDiff));
    assert GapHeadings(rowDiff, colDiff) == [v, h];
    assert GapOrder(rowDiff, colDiff) == if Abs(rowDiff) >= Abs(colDiff) then [v.dir, h.dir] else [h.dir, v.dir];
    SortTwoHeadings(v, h);
    DirsOfPair(v, h);
    DirsOfPair(h, v);
  }

  lemma DirsOfPair(g: Heading, h: Heading)
    ensures DirsOf([g, h]) == [g.dir, h.dir]
  {
  }

  lemma OneGapOrder(rowDiff: int, colDiff: int)
    requires rowDiff == 0 || colDiff == 0
    ensures DirsOf(SortByBenefit(GapHeadings(rowDiff, colDiff))) == GapOrder(rowDiff, colDiff)
  {
    if rowDiff != 0 {
      var v := Heading(if rowDiff > 0 then Down else Up, Abs(rowDiff));
      assert GapHeadings(rowDiff, colDiff) == [v];
      SortOneHeading(v);
    } else if colDiff != 0 {
      var h := Heading(if colDiff > 0 then Right else Left, Abs(colDiff));
      assert GapHeadings(rowDiff, colDiff) == [h];
      SortOneHeading(h);
    }
  }

  lemma SortOneHeading(h: Heading)
    ensures DirsOf(SortByBenefit([h])) == [h.dir]
  {
    assert SortByBenefit([h]) == [h];
  }

  /** On one board snapshot the partial move finds exactly what the plan found. */
  lemma MoveTowardsEqualsPlan(b: BoardState, cur: Pos, target: Pos, maxSteps: nat)
    requires WellFormed(b)
    ensures MoveTowardsTarget(b, cur, target, maxSteps) == PlanPathToTarget(b, cur, target, maxSteps)
  {
    HeadingOrderIsPlanOrder(cur, target);
  }

  // ---------------------------------------------------------------------
  // Coin targets

  datatype Target = Target(pos: Pos, distance: nat)

  /** Closer first; among equally close targets, row-major order. */
  predicate Before(s: Target, t: Target) {
    s.distance < t.distance || (s.distance == t.distance && RowMajorBefore(s.pos, t.pos))
  }

  ghost predicate ByDistance(ts: seq<Target>) {
    forall i, j :: 0 <= i < j < |ts| ==> Before(ts[i], ts[j])
  }

  ghost predicate PositionsRowMajor(ts: seq<Target>) {
    forall i, j :: 0 <= i < j < |ts| ==> RowMajorBefore(ts[i].pos, ts[j].pos)
  }

  /** Inserts t after every target at most as far away. */
  function InsertByDistance(t: Target, ts: seq<Target>): (r: seq<Target>)
    ensures multiset(r) == multiset(ts) + multiset{t}
  {
    if |ts| == 0 then [t]
    else if t.distance < ts[0].distance then [t] + ts
    else
      assert ts == [ts[0]] + ts[1..];
      [ts[0]] + InsertByDistance(t, ts[1..])
  }

  /** Stable sort by ascending distance. */
  function SortByDistance(ts: seq<Target>): (r: seq<Target>)
    ensures multiset(r) == multiset(ts)
    ensures forall t :: t in r <==> t in ts
  {
    if |ts| == 0 then []
    else
      assert ts == ts[..|ts| - 1] + [ts[|ts| - 1]];
      var r := InsertByDistance(ts[|ts| - 1], SortByDistance(ts[..|ts| - 1]));
      assert forall t :: t in r <==> t in multiset(ts);
      r
  }

  lemma {:induction false} InsertByDistanceOrders(t: Target, ts: seq<Target>)
    requires ByDistance(ts)
    requires forall u :: u in ts ==> RowMajorBefore(u.pos, t.pos)
    ensures ByDistance(InsertByDistance(t, ts))
  {
    if |ts| > 0 && t.distance >= ts[0].distance {
      var rest := InsertByDistance(t, ts[1..]);
      assert forall u :: u in ts[1..] ==> u in ts;
      InsertByDistanceOrders(t, ts[1..]);
      assert forall k :: 0 <= k < |rest| ==> rest[k] in multiset(ts[1..]) + multiset{t};
      assert forall k :: 0 <= k < |rest| ==> Before(ts[0], rest[k]) by {
        forall k | 0 <= k < |rest|
          ensures Before(ts[0], rest[k])
        {
          assert rest[k] in multiset(ts[1..]) + multiset{t};
          if rest[k] != t {
            assert rest[k] in ts[1..];
            var m :| 0 <= m < |ts[1..]| && ts[1..][m] == rest[k];
            assert ts[m + 1] == rest[k];
          }
        }
      }
    }
  }

  /** A stable sort of a row-major list by distance is ordered by distance
      and then row-major. */
  lemma {:induction false} SortByDistanceOrders(ts: seq<Target>)
    requires PositionsRowMajor(ts)
    ensures ByDistance(SortByDistance(ts))
  {
    if |ts| > 0 {
      var init := ts[..|ts| - 1];
      var last := ts[|ts| - 1];
      SortByDistanceOrders(init);
      forall u | u in SortByDistance(init)
        ensures RowMajorBefore(u.pos, last.pos)
      {
        assert u in multiset(init);
        var m :| 0 <= m < |init| && init[m] == u;
        assert ts[m] == u;
      }
      InsertByDistanceOrders(last, SortByDistance(init));
    }
  }

  function TargetsAt(cur: Pos, ps: seq<Pos>): (ts: seq<Target>)
    ensures |ts| == |ps|
    ensures forall i :: 0 <= i < |ps| ==> ts[i] == Target(ps[i], Manhattan(cur, ps[i]))
    ensures forall t :: t in ts <==> t.pos in ps && t.distance == Manhattan(cur, t.pos)
  {
    if |ps| == 0 then [] else [Target(ps[0], Manhattan(cur, ps[0]))] + TargetsAt(cur, ps[1..])
  }

  /** Every coin of the board, each once, with its distance from `cur`,
      closest first and row-major among equally close ones. */
  function FindNearestItems(b: BoardState, cur: Pos): (ts: seq<Target>)
    requires WellFormed(b)
    ensures forall t :: t in ts ==>
      IsValid(b, t.pos.row, t.pos.col) && At(b, t.pos.row, t.pos.col).item == Some(Coin)
      && t.distance == Manhattan(cur, t.pos)
    ensures forall r, c :: IsValid(b, r, c) && At(b, r, c).item == Some(Coin) ==>
      Target(Pos(r, c), Manhattan(cur, Pos(r, c))) in ts
    ensures ByDistance(ts)
  {
    var coins := Scan(b, HoldsCoin);
    var unsorted := TargetsAt(cur, coins);
    assert PositionsRowMajor(unsorted);
    SortByDistanceOrders(unsorted);
    SortByDistance(unsorted)
  }

  // ---------------------------------------------------------------------
  // Choosing the turn's path

  lemma FourDirectionsBlocked(b: BoardState, cur: Pos, steps: nat)
    requires WellFormed(b)
    ensures (forall d :: BuildPath(b, cur, d, steps) == []) <==>
      BuildPath(b, cur, Up, steps) == [] && BuildPath(b, cur, Down, steps) == []
      && BuildPath(b, cur, Right, steps) == [] && BuildPath(b, cur, Left, steps) == []
  {
    forall d | BuildPath(b, cur, Up, steps) == [] && BuildPath(b, cur, Down, steps) == []
      && BuildPath(b, cur, Right, steps) == [] && BuildPath(b, cur, Left, steps) == []
      ensures BuildPath(b, cur, d, steps) == []
    {
      if d.Up? {
      } else if d.Down? {
      } else if d.Right? {
      } else {
      }
    }
  }

  /** The fallback walk: up, down, right, left, the first with an open cell. */
  function FindRandomPath(b: BoardState, cur: Pos, steps: nat): (path: seq<Pos>)
    requires WellFormed(b)
    ensures path == [] <==> steps == 0 || forall d :: !Open(b, Ahead(cur, d, 1))
    ensures path != [] ==> exists d :: path == BuildPath(b, cur, d, steps)
    ensures path != [] ==> exists i :: FirstOpenAt(b, cur, [Up, Down, Right, Left], steps, i, path)
  {
    var dirs := [Up, Down, Right, Left];
    var path := FirstPath(b, cur, dirs, steps);
    var allBlocked := BuildPath(b, cur, Up, steps) == [] && BuildPath(b, cur, Down, steps) == []
      && BuildPath(b, cur, Right, steps) == [] && BuildPath(b, cur, Left, steps) == [];
    assert path == [] <==> allBlocked by {
      assert dirs[0] == Up && dirs[1] == Down && dirs[2] == Right && dirs[3] == Left;
    }
    FourDirectionsBlocked(b, cur, steps);
    path
  }

  /** `path` is the plan toward `ts[i]`, and no target before it has one. */
  ghost predicate FirstPlannedAt(b: BoardState, cur: Pos, ts: seq<Target>, steps: nat, i: int, path: seq<Pos>)
    requires WellFormed(b)
  {
    0 <= i < |ts| && path == PlanPathToTarget(b, cur, ts[i].pos, steps)
    && forall j :: 0 <= j < i ==> PlanPathToTarget(b, cur, ts[j].pos, steps) == []
  }

  /** A first plan found behind an unplannable head is the first plan of the whole list. */
  lemma FirstPlannedAfterHead(b: BoardState, cur: Pos, ts: seq<Target>, steps: nat, i: int, path: seq<Pos>)
    requires WellFormed(b) && |ts| > 0 && PlanPathToTarget(b, cur, ts[0].pos, steps) == []
    requires FirstPlannedAt(b, cur, ts[1..], steps, i, path)
    ensures FirstPlannedAt(b, cur, ts, steps, i + 1, path)
  {
    var tail := ts[1..];
    assert ts[i + 1] == tail[i];
    assert forall j :: 1 <= j < i + 1 ==> ts[j] == tail[j - 1];
  }

  /** The plan toward the first target, in distance order, that has one. */
  function FirstTargetPath(b: BoardState, cur: Pos, ts: seq<Target>, steps: nat): (path: seq<Pos>)
    requires WellFormed(b)
    ensures path == [] <==> forall i :: 0 <= i < |ts| ==> PlanPathToTarget(b, cur, ts[i].pos, steps) == []
    ensures path != [] ==> exists d :: path == BuildPath(b, cur, d, steps)
  {
    if |ts| == 0 then []
    else
      var p := PlanPathToTarget(b, cur, ts[0].pos, steps);
      if p != [] then p else FirstTargetPath(b, cur, ts[1..], steps)
  }

  /** A non-empty result is the plan toward the first target that has one. */
  lemma {:induction false} FirstTargetPathIsFirst(b: BoardState, cur: Pos, ts: seq<Target>, steps: nat)
    requires WellFormed(b)
    ensures var path := FirstTargetPath(b, cur, ts, steps);
      path != [] ==> exists i :: FirstPlannedAt(b, cur, ts, steps, i, path)
  {
    if |ts| > 0 {
      var p := PlanPathToTarget(b, cur, ts[0].pos, steps);
      if p != [] {
        assert FirstPlannedAt(b, cur, ts, steps, 0, p);
      } else {
        FirstTargetPathIsFirst(b, cur, ts[1..], steps);
        var rest := FirstTargetPath(b, cur, ts[1..], steps);
        if rest != [] {
          var i :| FirstPlannedAt(b, cur, ts[1..], steps, i, rest);
          FirstPlannedAfterHead(b, cur, ts, steps, i, rest);
        }
      }
    }
  }

  /** The path a player takes from `cur` with `steps` steps: toward the
      nearest reachable coin, else partly toward the nearest coin, else the
      fallback walk. It is empty exactly when no neighbour is open. */
  function FindPathToNearestItem(b: BoardState, cur: Pos, steps: nat): (path: seq<Pos>)
    requires WellFormed(b)
    ensures path != [] ==> exists d :: path == BuildPath(b, cur, d, steps)
    ensures path == [] <==> steps == 0 || forall d :: !Open(b, Ahead(cur, d, 1))
    ensures var ts := FindNearestItems(b, cur);
      (exists i :: 0 <= i < |ts| && PlanPathToTarget(b, cur, ts[i].pos, steps) != []) ==>
      exists i :: FirstPlannedAt(b, cur, ts, steps, i, path)
    ensures var ts := FindNearestItems(b, cur);
      (forall i :: 0 <= i < |ts| ==> PlanPathToTarget(b, cur, ts[i].pos, steps) == []) ==>
      path == FindRandomPath(b, cur, steps)
  {
    var targets := FindNearestItems(b, cur);
    if |targets| == 0 then FindRandomPath(b, cur, steps)
    else
      var toward := FirstTargetPath(b, cur, targets, steps);
      FirstTargetPathIsFirst(b, cur, targets, steps);
      if toward != [] then toward
      else
        var partial := MoveTowardsTarget(b, cur, targets[0].pos, steps);
        if partial != [] then partial else FindRandomPath(b, cur, steps)
  }

  /** When every coin plan came back empty, the partial move toward the
      nearest coin finds nothing either. */
  lemma PartialMoveAddsNothing(b: BoardState, cur: Pos, steps: nat)
    requires WellFormed(b)
    requires var ts := FindNearestItems(b, cur); |ts| > 0 && FirstTargetPath(b, cur, ts, steps) == []
    ensures MoveTowardsTarget(b, cur, FindNearestItems(b, cur)[0].pos, steps) == []
  {
    MoveTowardsEqualsPlan(b, cur, FindNearestItems(b, cur)[0].pos, steps);
  }

  // ---------------------------------------------------------------------
  // Items and movement

  /** Collects the item under the player and applies it: a coin adds its
      quantity, a life adds one life, a trap takes one and kills the player
      once no lives remain. */
  function HandleItem(b: BoardState, pl: PlayerState): (r: (BoardState, PlayerState))
    requires WellFormed(b) && pl.pos.Some?
    ensures var p := pl.pos.value; r.0 == Collect(b, p.row, p.col).0
    ensures r.1 == pl.(lives := r.1.lives, coins := r.1.coins, alive := r.1.alive)
    ensures var p := pl.pos.value; ItemAt(b, p.row, p.col).None? ==> r == (b, pl)
    ensures var p := pl.pos.value; ItemAt(b, p.row, p.col) == Some(Coin) ==>
      r.1.coins == pl.coins + QuantityAt(b, p.row, p.col) && r.1.lives == pl.lives && r.1.alive == pl.alive
    ensures var p := pl.pos.value; ItemAt(b, p.row, p.col) == Some(Life) ==>
      r.1.lives == pl.lives + 1 && r.1.coins == pl.coins && r.1.alive == pl.alive
    ensures var p := pl.pos.value; ItemAt(b, p.row, p.col) == Some(Trap) ==>
      r.1.lives == pl.lives - 1 && r.1.coins == pl.coins && (r.1.alive <==> pl.alive && r.1.lives > 0)
  {
    var p := pl.pos.value;
    match ItemAt(b, p.row, p.col)
    case None => (b, pl)
    case Some(item) =>
      var quantity := QuantityAt(b, p.row, p.col);
      var collected := Collect(b, p.row, p.col).0;
      match item
      case Coin => (collected, pl.(coins := pl.coins + quantity))
      case Life => (collected, pl.(lives := pl.lives + 1))
      case Trap =>
        var hurt := pl.(lives := pl.lives - 1);
        (collected, if hurt.lives <= 0 then hurt.(alive := false) else hurt)
  }

  /** On a board whose items are well formed, an item never lowers the
      coins and never revives a player. */
  lemma HandleItemMonotone(b: BoardState, pl: PlayerState)
    requires Inv(b) && pl.pos.Some?
    ensures HandleItem(b, pl).1.coins >= pl.coins
    ensures HandleItem(b, pl).1.alive ==> pl.alive
  {
    var p := pl.pos.value;
    if ItemAt(b, p.row, p.col) == Some(Coin) {
      assert QuantityFits(At(b, p.row, p.col));
    }
  }

  /** The player stands on the cell its position names. */
  ghost predicate Holds(b: BoardState, pl: PlayerState)
    requires WellFormed(b)
  {
    pl.pos.Some? && IsValid(b, pl.pos.value.row, pl.pos.value.col)
    && At(b, pl.pos.value.row, pl.pos.value.col).occupant == Some(pl.id)
  }

  datatype Turn = Turn(board: BoardState, player: PlayerState)

  /** What a turn keeps, from the state before it (`b`, `pl`) to the state
      after it (`t`): the board invariant, the player on its cell, and the
      progress below. */
  ghost predicate Keeps(b: BoardState, pl: PlayerState, t: Turn)
    requires WellFormed(t.board)
  {
    Inv(t.board) && Holds(t.board, t.player) && Progress(b, pl, t)
  }

  /** The board keeps its size, trap count and caps; the player's coins
      never fall and a dead player stays dead. */
  predicate Progress(b: BoardState, pl: PlayerState, t: Turn) {
    t.board.size == b.size && t.board.trapsCount == b.trapsCount
    && t.player.coins >= pl.coins && (t.player.alive ==> pl.alive)
    && (CapsHold(b) ==> CapsHold(t.board))
  }

  lemma ProgressChain(b: BoardState, pl: PlayerState, t: Turn, u: Turn)
    requires Progress(b, pl, t) && Progress(t.board, t.player, u)
    ensures Progress(b, pl, u)
  {
  }

  /** One step: release the current cell and occupy `next`, collecting its
      item; when the occupy fails, occupy the current cell again. */
  function Advance(b: BoardState, pl: PlayerState, next: Pos): (r: (Turn, bool))
    requires WellFormed(b) && pl.pos.Some?
    ensures WellFormed(r.0.board) && r.0.board.size == b.size
    ensures r.0.player.id == pl.id && r.0.player.pos.Some?
    ensures r.1 ==> r.0.player.pos == Some(next)
    ensures !r.1 ==> r.0.player == pl
    ensures r.1 <==> TryOccupy(Release(b, pl.pos.value.row, pl.pos.value.col, pl.id), next.row, next.col, pl.id).1
    ensures r.1 ==> (r.0.board, r.0.player) == HandleItem(
      TryOccupy(Release(b, pl.pos.value.row, pl.pos.value.col, pl.id), next.row, next.col, pl.id).0,
      pl.(pos := Some(next)))
  {
    var cur := pl.pos.value;
    var released := Release(b, cur.row, cur.col, pl.id);
    var (entered, ok) := TryOccupy(released, next.row, next.col, pl.id);
    if ok then
      var (collected, moved) := HandleItem(entered, pl.(pos := Some(next)));
      (Turn(collected, moved), true)
    else
      (Turn(TryOccupy(entered, cur.row, cur.col, pl.id).0, pl), false)
  }

  /** A failed step leaves the board and the player exactly as they were:
      the player takes back the cell it had just let go. */
  lemma FailedStepRestoresBoard(b: BoardState, pl: PlayerState, next: Pos)
    requires WellFormed(b) && Holds(b, pl) && !Advance(b, pl, next).1
    ensures Advance(b, pl, next).0 == Turn(b, pl)
  {
    var cur := pl.pos.value;
    ReleaseOccupyRoundTrip(b, cur.row, cur.col, pl.id);
  }

  /** A step keeps the board invariant and keeps the player on its cell:
      on the new cell after a successful step, back on the old one after a
      failed occupy. */
  lemma AdvanceKeepsHold(b: BoardState, pl: PlayerState, next: Pos)
    requires Inv(b) && Holds(b, pl)
    ensures Keeps(b, pl, Advance(b, pl, next).0)
  {
    var cur := pl.pos.value;
    var released := Release(b, cur.row, cur.col, pl.id);
    ReleaseKeepsInv(b, cur.row, cur.col, pl.id);
    var (entered, ok) := TryOccupy(released, next.row, next.col, pl.id);
    TryOccupyKeepsInv(released, next.row, next.col, pl.id);
    if ok {
      var moved := pl.(pos := Some(next));
      HandleItemMonotone(entered, moved);
      CollectKeepsInv(entered, next.row, next.col);
    } else {
      TryOccupyKeepsInv(entered, cur.row, cur.col, pl.id);
    }
  }

  /** Walks the planned path cell by cell while the round is active and
      the player alive. A cell found occupied makes the player plan afresh
      with the steps it has left and walk that instead; a failed occupy
      ends the turn. `justPlanned` marks a path just planned on this board, whose
      first cell is therefore open, which bounds the replanning. */
  function MoveAlongPath(b: BoardState, pl: PlayerState, path: seq<Pos>, dice: nat, moved: nat,
                         roundActive: bool, justPlanned: bool): (t: Turn)
    requires WellFormed(b) && pl.pos.Some?
    requires justPlanned && moved == 0 ==> path == FindPathToNearestItem(b, pl.pos.value, dice)
    decreases dice, if justPlanned then 0 else 1, |path|
    ensures WellFormed(t.board) && t.board.size == b.size
    ensures t.player.id == pl.id && t.player.pos.Some?
  {
    if |path| == 0 || !roundActive || !pl.alive then Turn(b, pl)
    else
      var next := path[0];
      if IsOccupied(b, next.row, next.col) then
        var remaining := dice - moved;
        if remaining > 0 then
          var replanned := FindPathToNearestItem(b, pl.pos.value, remaining);
          if replanned != [] then MoveAlongPath(b, pl, replanned, remaining, 0, roundActive, true)
          else Turn(b, pl)
        else Turn(b, pl)
      else
        var (t, ok) := Advance(b, pl, next);
        if ok then MoveAlongPath(t.board, t.player, path[1..], dice, moved + 1, roundActive, justPlanned)
        else t
  }

  /** A walk keeps the board invariant and the caps, keeps the player on
      the cell its position names, never lowers its coins and never
      revives it. */
  lemma {:induction false} MoveAlongPathKeepsHold(b: BoardState, pl: PlayerState, path: seq<Pos>, dice: nat,
                                                 moved: nat, roundActive: bool, justPlanned: bool)
    requires Inv(b) && Holds(b, pl)
    requires justPlanned && moved == 0 ==> path == FindPathToNearestItem(b, pl.pos.value, dice)
    decreases dice, if justPlanned then 0 else 1, |path|, 2
    ensures Keeps(b, pl, MoveAlongPath(b, pl, path, dice, moved, roundActive, justPlanned))
  {
    if |path| == 0 || !roundActive || !pl.alive {
    } else if IsOccupied(b, path[0].row, path[0].col) {
      ReplanKeepsHold(b, pl, path, dice, moved, roundActive, justPlanned);
    } else {
      StepKeepsHold(b, pl, path, dice, moved, roundActive, justPlanned);
    }
  }

  /** The walk's branch for a blocked next cell: replanning keeps the hold. */
  lemma {:induction false} ReplanKeepsHold(b: BoardState, pl: PlayerState, path: seq<Pos>, dice: nat,
                                          moved: nat, roundActive: bool, justPlanned: bool)
    requires Inv(b) && Holds(b, pl)
    requires justPlanned && moved == 0 ==> path == FindPathToNearestItem(b, pl.pos.value, dice)
    requires |path| > 0 && roundActive && pl.alive && IsOccupied(b, path[0].row, path[0].col)
    decreases dice, if justPlanned then 0 else 1, |path|, 1
    ensures Keeps(b, pl, MoveAlongPath(b, pl, path, dice, moved, roundActive, justPlanned))
  {
    var walk := MoveAlongPath(b, pl, path, dice, moved, roundActive, justPlanned);
    var remaining := dice - moved;
    var replanned := if remaining > 0 then FindPathToNearestItem(b, pl.pos.value, remaining) else [];
    if replanned != [] {
      assert walk == MoveAlongPath(b, pl, replanned, remaining, 0, roundActive, true);
      MoveAlongPathKeepsHold(b, pl, replanned, remaining, 0, roundActive, true);
    } else {
      assert walk == Turn(b, pl);
    }
  }

  /** The walk's branch for an open next cell: the step and the rest of the
      walk keep the hold. */
  lemma {:induction false} StepKeepsHold(b: BoardState, pl: PlayerState, path: seq<Pos>, dice: nat,
                                        moved: nat, roundActive: bool, justPlanned: bool)
    requires Inv(b) && Holds(b, pl)
    requires justPlanned && moved == 0 ==> path == FindPathToNearestItem(b, pl.pos.value, dice)
    requires |path| > 0 && roundActive && pl.alive && !IsOccupied(b, path[0].row, path[0].col)
    decreases dice, if justPlanned then 0 else 1, |path|, 1
    ensures Keeps(b, pl, MoveAlongPath(b, pl, path, dice, moved, roundActive, justPlanned))
  {
    WalkUnfoldsStep(b, pl, path, dice, moved, roundActive, justPlanned);
    if Advance(b, pl, path[0]).1 {
      WalkOnKeepsHold(b, pl, path, dice, moved, roundActive, justPlanned);
    } else {
      AdvanceKeepsHold(b, pl, path[0]);
    }
  }

  /** After a successful step, the rest of the walk keeps the hold from
      the state before the step. */
  lemma {:induction false} WalkOnKeepsHold(b: BoardState, pl: PlayerState, path: seq<Pos>, dice: nat,
                                          moved: nat, roundActive: bool, justPlanned: bool)
    requires Inv(b) && Holds(b, pl) && |path| > 0 && Advance(b, pl, path[0]).1
    decreases dice, if justPlanned then 0 else 1, |path|, 0
    ensures var t := Advance(b, pl, path[0]).0;
      Keeps(b, pl, MoveAlongPath(t.board, t.player, path[1..], dice, moved + 1, roundActive, justPlanned))
  {
    var t := Advance(b, pl, path[0]).0;
    AdvanceKeepsHold(b, pl, path[0]);
    MoveAlongPathKeepsHold(t.board, t.player, path[1..], dice, moved + 1, roundActive, justPlanned);
    KeepsChain(b, pl, t, MoveAlongPath(t.board, t.player, path[1..], dice, moved + 1, roundActive, justPlanned));
  }

  lemma KeepsChain(b: BoardState, pl: PlayerState, t: Turn, u: Turn)
    requires WellFormed(t.board) && WellFormed(u.board)
    requires Keeps(b, pl, t) && Keeps(t.board, t.player, u)
    ensures Keeps(b, pl, u)
  {
    ProgressChain(b, pl, t, u);
  }

  /** On an open next cell the walk takes the step and, when it succeeds,
      walks on from the new cell. */
  lemma WalkUnfoldsStep(b: BoardState, pl: PlayerState, path: seq<Pos>, dice: nat,
                        moved: nat, roundActive: bool, justPlanned: bool)
    requires WellFormed(b) && pl.pos.Some?
    requires justPlanned && moved == 0 ==> path == FindPathToNearestItem(b, pl.pos.value, dice)
    requires |path| > 0 && roundActive && pl.alive && !IsOccupied(b, path[0].row, path[0].col)
    ensures var step := Advance(b, pl, path[0]);
      MoveAlongPath(b, pl, path, dice, moved, roundActive, justPlanned) ==
        if step.1 then MoveAlongPath(step.0.board, step.0.player, path[1..], dice, moved + 1, roundActive, justPlanned)
        else step.0
  {
  }

  /** A walk does nothing once the round has ended or the player has died. */
  lemma MoveAlongPathStops(b: BoardState, pl: PlayerState, path: seq<Pos>, dice: nat, moved: nat, justPlanned: bool)
    requires WellFormed(b) && pl.pos.Some?
    requires justPlanned && moved == 0 ==> path == FindPathToNearestItem(b, pl.pos.value, dice)
    ensures !pl.alive ==> MoveAlongPath(b, pl, path, dice, moved, true, justPlanned) == Turn(b, pl)
    ensures MoveAlongPath(b, pl, path, dice, moved, false, justPlanned) == Turn(b, pl)
  {
  }

  /** One turn: roll the dice, plan, and walk the plan. */
  function PlayTurn(b: BoardState, pl: PlayerState, roll: nat, roundActive: bool): (t: Turn)
    requires WellFormed(b) && pl.pos.Some?
    ensures WellFormed(t.board) && t.board.size == b.size
    ensures t.player.id == pl.id && t.player.pos.Some?
    ensures !roundActive || !pl.alive ==> t == Turn(b, pl)
    ensures (forall d :: !Open(b, Ahead(pl.pos.value, d, 1))) ==> t == Turn(b, pl)
  {
    var dice := Dice(roll);
    var path := FindPathToNearestItem(b, pl.pos.value, dice);
    if path == [] then Turn(b, pl)
    else
      MoveAlongPathStops(b, pl, path, dice, 0, true);
      MoveAlongPath(b, pl, path, dice, 0, roundActive, true)
  }

  /** A turn keeps the board invariant and the caps, leaves the player on
      its cell, and neither lowers its coins nor revives it. */
  lemma PlayTurnKeepsHold(b: BoardState, pl: PlayerState, roll: nat, roundActive: bool)
    requires Inv(b) && Holds(b, pl)
    ensures Keeps(b, pl, PlayTurn(b, pl, roll, roundActive))
  {
    var dice := Dice(roll);
    var path := FindPathToNearestItem(b, pl.pos.value, dice);
    if path != [] {
      MoveAlongPathKeepsHold(b, pl, path, dice, 0, roundActive, true);
    }
  }

  /** A player with an open neighbour, alive in an active round, finds a
      path whose first cell it can step onto: the turn's first step
      succeeds. */
  lemma PlayTurnFirstStep(b: BoardState, pl: PlayerState, roll: nat)
    requires Inv(b) && Holds(b, pl)
    requires exists d :: Open(b, Ahead(pl.pos.value, d, 1))
    ensures var path := FindPathToNearestItem(b, pl.pos.value, Dice(roll));
      path != [] && !IsOccupied(b, path[0].row, path[0].col) && Advance(b, pl, path[0]).1
  {
    var cur := pl.pos.value;
    var path := FindPathToNearestItem(b, cur, Dice(roll));
    var d :| path == BuildPath(b, cur, d, Dice(roll));
    assert path[0] == Ahead(cur, d, 1);
    StepOntoOpenCell(b, pl, d);
  }

  /** A successful step changes no cell other than the one left and the one
      entered, so every other open cell stays open. */
  lemma AdvanceKeepsOpen(b: BoardState, pl: PlayerState, next: Pos, q: Pos)
    requires WellFormed(b) && pl.pos.Some? && Advance(b, pl, next).1
    requires Open(b, q) && q != pl.pos.value && q != next
    ensures Open(Advance(b, pl, next).0.board, q)
  {
    var cur := pl.pos.value;
    var released := Release(b, cur.row, cur.col, pl.id);
    var entered := TryOccupy(released, next.row, next.col, pl.id).0;
    assert At(released, q.row, q.col) == At(b, q.row, q.col);
    assert At(entered, q.row, q.col) == At(b, q.row, q.col);
    var collected := Collect(entered, next.row, next.col).0;
    assert At(collected, q.row, q.col) == At(b, q.row, q.col);
  }

  /** The first step along an open run succeeds, keeps the hold, and leaves
      the rest of the run open. */
  lemma StraightStep(b: BoardState, pl: PlayerState, from: Pos, d: Dir, k: nat, path: seq<Pos>)
    requires Inv(b) && Holds(b, pl) && pl.pos == Some(Ahead(from, d, k))
    requires |path| > 0 && OpenRun(b, from, d, k, path)
    ensures var r := Advance(b, pl, path[0]);
      r.1 && Inv(r.0.board) && Holds(r.0.board, r.0.player) && r.0.player.pos == Some(path[0])
      && path[0] == Ahead(from, d, k + 1) && OpenRun(r.0.board, from, d, k + 1, path[1..])
  {
    var next := path[0];
    assert next == Ahead(pl.pos.value, d, 1);
    StepOntoOpenCell(b, pl, d);
    AdvanceKeepsHold(b, pl, next);
    var t := Advance(b, pl, next).0;
    forall i | 0 <= i < |path| - 1
      ensures path[1..][i] == Ahead(from, d, k + 2 + i) && Open(t.board, path[1..][i])
    {
      AdvanceKeepsOpen(b, pl, next, path[i + 1]);
    }
  }

  /** A walk along an open run, after its first step, ends where it started
      or on a cell of the run. */
  lemma {:induction false} StraightWalkEnds(b: BoardState, pl: PlayerState, from: Pos, d: Dir, k: nat,
                                            path: seq<Pos>, dice: nat, moved: nat)
    requires Inv(b) && Holds(b, pl) && moved >= 1
    requires pl.pos == Some(Ahead(from, d, k)) && OpenRun(b, from, d, k, path)
    decreases |path|, 2
    ensures var e := MoveAlongPath(b, pl, path, dice, moved, true, true).player.pos;
      e == pl.pos || e.value in path
  {
    if |path| > 0 && pl.alive {
      StraightWalkThrough(b, pl, from, d, k, path, dice, moved);
    }
  }

  /** A live player walking an open run, however far it has come, ends on
      a cell of the run: every step succeeds, so it never replans. */
  lemma {:induction false} StraightWalkThrough(b: BoardState, pl: PlayerState, from: Pos, d: Dir, k: nat,
                                               path: seq<Pos>, dice: nat, moved: nat)
    requires Inv(b) && Holds(b, pl) && pl.alive && |path| > 0
    requires moved == 0 ==> path == FindPathToNearestItem(b, pl.pos.value, dice)
    requires pl.pos == Some(Ahead(from, d, k)) && OpenRun(b, from, d, k, path)
    decreases |path|, 1
    ensures MoveAlongPath(b, pl, path, dice, moved, true, true).player.pos.value in path
  {
    StraightStep(b, pl, from, d, k, path);
    WalkUnfoldsStep(b, pl, path, dice, moved, true, true);
    StraightWalkOn(b, pl, from, d, k, path, dice, moved);
  }

  /** The rest of a straight walk after its first step ends on a cell of the run. */
  lemma {:induction false} StraightWalkOn(b: BoardState, pl: PlayerState, from: Pos, d: Dir, k: nat,
                                          path: seq<Pos>, dice: nat, moved: nat)
    requires Inv(b) && Holds(b, pl)
    requires pl.pos == Some(Ahead(from, d, k)) && |path| > 0 && OpenRun(b, from, d, k, path)
    decreases |path|, 0
    ensures var t := Advance(b, pl, path[0]).0;
      MoveAlongPath(t.board, t.player, path[1..], dice, moved + 1, true, true).player.pos.value in path
  {
    StraightStep(b, pl, from, d, k, path);
    var t := Advance(b, pl, path[0]).0;
    StraightWalkEnds(t.board, t.player, from, d, k + 1, path[1..], dice, moved + 1);
    EndsOnRun(path, t.player, MoveAlongPath(t.board, t.player, path[1..], dice, moved + 1, true, true));
  }

  lemma EndsOnRun(path: seq<Pos>, pl: PlayerState, w: Turn)
    requires |path| > 0 && pl.pos == Some(path[0]) && w.player.pos.Some?
    requires w.player.pos == pl.pos || w.player.pos.value in path[1..]
    ensures w.player.pos.value in path
  {
    assert path == [path[0]] + path[1..];
  }

  /** With the round on, a live player with an open neighbour takes the
      first step of its planned path, and the rest of its turn is the walk
      along the remainder from the cell it stepped onto. */
  lemma PlayTurnStepsFirst(b: BoardState, pl: PlayerState, roll: nat)
    requires Inv(b) && Holds(b, pl) && pl.alive
    requires exists d :: Open(b, Ahead(pl.pos.value, d, 1))
    ensures var path := FindPathToNearestItem(b, pl.pos.value, Dice(roll));
      && path != []
      && var s := Advance(b, pl, path[0]).0;
      && s.player.pos == Some(path[0])
      && PlayTurn(b, pl, roll, true) == MoveAlongPath(s.board, s.player, path[1..], Dice(roll), 1, true, true)
  {
    var path := FindPathToNearestItem(b, pl.pos.value, Dice(roll));
    PlayTurnFirstStep(b, pl, roll);
    WalkUnfoldsStep(b, pl, path, Dice(roll), 0, true, true);
  }

  /** Zero steps in any direction stay put. */
  lemma AheadNone(p: Pos, d: Dir)
    ensures Ahead(p, d, 0) == p
  {
  }

  /** A straight run of cells never comes back to the cell it starts from. */
  lemma RunAvoidsStart(b: BoardState, cur: Pos, d: Dir, path: seq<Pos>)
    requires WellFormed(b) && OpenRun(b, cur, d, 0, path)
    ensures cur !in path
  {
    forall i | 0 <= i < |path| ensures path[i] != cur {
      assert path[i] == Ahead(cur, d, i + 1);
    }
  }

  /** With the round on, a live player with an open neighbour ends its turn
      on a cell of the path it planned, and so on another cell: the cells
      further along stay open after its own step, so it never replans. */
  lemma PlayTurnMoves(b: BoardState, pl: PlayerState, roll: nat)
    requires Inv(b) && Holds(b, pl) && pl.alive
    requires exists d :: Open(b, Ahead(pl.pos.value, d, 1))
    ensures PlayTurn(b, pl, roll, true).player.pos.value in FindPathToNearestItem(b, pl.pos.value, Dice(roll))
    ensures PlayTurn(b, pl, roll, true).player.pos != pl.pos
  {
    var cur := pl.pos.value;
    var dice := Dice(roll);
    var path := FindPathToNearestItem(b, cur, dice);
    PlayTurnStepsFirst(b, pl, roll);
    var d :| path == BuildPath(b, cur, d, dice);
    assert OpenRun(b, cur, d, 0, path);
    AheadNone(cur, d);
    StraightWalkThrough(b, pl, cur, d, 0, path, dice, 0);
    RunAvoidsStart(b, cur, d, path);
  }

  /** Stepping onto an open neighbouring cell succeeds. */
  lemma StepOntoOpenCell(b: BoardState, pl: PlayerState, d: Dir)
    requires Inv(b) && Holds(b, pl) && Open(b, Ahead(pl.pos.value, d, 1))
    ensures Advance(b, pl, Ahead(pl.pos.value, d, 1)).1
  {
    var cur := pl.pos.value;
    var next := Ahead(cur, d, 1);
    assert next != cur;
    var released := Release(b, cur.row, cur.col, pl.id);
    ReleaseKeepsInv(b, cur.row, cur.col, pl.id);
    OccupySucceedsIffFree(released, next.row, next.col, pl.id);
  }

  // ---------------------------------------------------------------------
  // Start of a round and the player's loop

  /** Up to StartAttempts tries (one random draw each) to find an
      unoccupied cell and occupy it; the flag says whether one was found. */
  function FindStartPosition(b: BoardState, pl: PlayerState, rolls: seq<nat>): (r: (Turn, bool))
    requires WellFormed(b)
    decreases |rolls|
    ensures WellFormed(r.0.board) && r.0.board.size == b.size && SameCounters(b, r.0.board)
    ensures r.1 ==> r.0.player == pl.(pos := r.0.player.pos) && Holds(r.0.board, r.0.player)
    ensures !r.1 ==> r.0 == Turn(b, pl)
  {
    if |rolls| == 0 then (Turn(b, pl), false)
    else
      match RandomFreePosition(b, rolls[0])
      case Some(p) =>
        var (occupied, ok) := TryOccupy(b, p.row, p.col, pl.id);
        if ok then (Turn(occupied, pl.(pos := Some(p))), true)
        else FindStartPosition(b, pl, rolls[1..])
      case None => FindStartPosition(b, pl, rolls[1..])
  }

  /** With sound locks, the first attempt succeeds whenever some cell is
      unoccupied, and all attempts fail (changing nothing) otherwise. */
  lemma FindStartSucceedsIffFreeCell(b: BoardState, pl: PlayerState, rolls: seq<nat>)
    requires Inv(b) && |rolls| == StartAttempts
    ensures FindStartPosition(b, pl, rolls).1 <==> exists row, col :: IsValid(b, row, col) && At(b, row, col).occupant.None?
    ensures Inv(FindStartPosition(b, pl, rolls).0.board)
  {
    var p := RandomFreePosition(b, rolls[0]);
    if p.Some? {
      OccupySucceedsIffFree(b, p.value.row, p.value.col, pl.id);
      TryOccupyKeepsInv(b, p.value.row, p.value.col, pl.id);
    } else {
      NoFreeCellNoStart(b, pl, rolls);
    }
  }

  lemma {:induction false} NoFreeCellNoStart(b: BoardState, pl: PlayerState, rolls: seq<nat>)
    requires WellFormed(b)
    requires forall r, c :: IsValid(b, r, c) ==> At(b, r, c).occupant.Some?
    ensures FindStartPosition(b, pl, rolls) == (Turn(b, pl), false)
    decreases |rolls|
  {
    if |rolls| > 0 {
      NoFreeCellNoStart(b, pl, rolls[1..]);
    }
  }

  /** Turns while alive, one dice roll each; the rolls running out stands
      for the round being stopped. */
  function Turns(b: BoardState, pl: PlayerState, rolls: seq<nat>): (t: Turn)
    requires WellFormed(b) && pl.pos.Some?
    decreases |rolls|
    ensures WellFormed(t.board) && t.board.size == b.size
    ensures t.player.id == pl.id && t.player.pos.Some?
    ensures !pl.alive ==> t == Turn(b, pl)
  {
    if |rolls| == 0 || !pl.alive then Turn(b, pl)
    else
      var t := PlayTurn(b, pl, rolls[0], true);
      Turns(t.board, t.player, rolls[1..])
  }

  lemma {:induction false} TurnsKeepHold(b: BoardState, pl: PlayerState, rolls: seq<nat>)
    requires Inv(b) && Holds(b, pl)
    decreases |rolls|
    ensures var t := Turns(b, pl, rolls);
      Inv(t.board) && Holds(t.board, t.player) && t.board.trapsCount == b.trapsCount
      && t.player.coins >= pl.coins && (t.player.alive ==> pl.alive)
      && (CapsHold(b) ==> CapsHold(t.board))
  {
    if |rolls| > 0 && pl.alive {
      var t := PlayTurn(b, pl, rolls[0], true);
      PlayTurnKeepsHold(b, pl, rolls[0], true);
      TurnsKeepHold(t.board, t.player, rolls[1..]);
    }
  }

  /** A player's whole round: find a start cell, take turns, and release
      the cell it stands on when it stops. */
  function Run(b: BoardState, pl: PlayerState, startRolls: seq<nat>, turnRolls: seq<nat>): (t: Turn)
    requires WellFormed(b)
    ensures WellFormed(t.board) && t.board.size == b.size && t.player.id == pl.id
    ensures !FindStartPosition(b, pl, startRolls).1 ==> t == Turn(b, pl)
    ensures FindStartPosition(b, pl, startRolls).1 ==> t.player.pos.Some? && !Holds(t.board, t.player)
  {
    var (start, found) := FindStartPosition(b, pl, startRolls);
    if !found then start
    else
      var t := Turns(start.board, start.player, turnRolls);
      var p := t.player.pos.value;
      Turn(Release(t.board, p.row, p.col, t.player.id), t.player)
  }

  /** After its round a player that held no cell before it stands on no
      cell it names, the board invariant and caps hold, and the player's
      coins are never negative. */
  lemma RunReleasesCell(b: BoardState, pl: PlayerState, startRolls: seq<nat>, turnRolls: seq<nat>)
    requires Inv(b) && |startRolls| == StartAttempts && pl.coins >= 0 && !Holds(b, pl)
    ensures var t := Run(b, pl, startRolls, turnRolls);
      Inv(t.board) && t.board.trapsCount == b.trapsCount && t.player.coins >= 0
      && (CapsHold(b) ==> CapsHold(t.board))
      && (t.player.pos.Some? ==> !Holds(t.board, t.player))
  {
    var (start, found) := FindStartPosition(b, pl, startRolls);
    FindStartSucceedsIffFreeCell(b, pl, startRolls);
    if found {
      TurnsThenRelease(start.board, start.player, turnRolls);
    }
  }

  /** A player that holds its cell, takes its turns and then releases the
      cell it ends on leaves a sound board and no longer holds a cell. */
  lemma TurnsThenRelease(b: BoardState, pl: PlayerState, rolls: seq<nat>)
    requires Inv(b) && Holds(b, pl)
    ensures var t := Turns(b, pl, rolls);
      var p := t.player.pos.value;
      var r := Release(t.board, p.row, p.col, t.player.id);
      Inv(r) && r.trapsCount == b.trapsCount && t.player.coins >= pl.coins
      && (CapsHold(b) ==> CapsHold(r)) && !Holds(r, t.player)
  {
    TurnsKeepHold(b, pl, rolls);
    var t := Turns(b, pl, rolls);
    var p := t.player.pos.value;
    ReleaseKeepsInv(t.board, p.row, p.col, t.player.id);
  }
}

=== FILE: robots.dfy ===
/** The three spawners that stock the board during a round. Each robot
    loops while its round flag is set, sleeping a random time between
    iterations; the sleeps are not modelled, and what the loop sees at each
    wake-up (the round flag as another thread left it, and the random draws
    for the spot and the coin amount) is given as a sequence of `Wake`s. */
module Robots {
  import opened Board

  /** One wake-up of a robot: whether the round flag is still set when the
      loop condition is read, and the random draws of the iteration. */
  datatype Wake = Wake(active: bool, spot: nat, amount: nat)

  /** A robot's round flag. Robots are created inactive. */
  datatype Robot = Robot(active: bool)

  function Start(r: Robot): (s: Robot)
    ensures s.active
  {
    Robot(true)
  }

  function Stop(r: Robot): (s: Robot)
    ensures !s.active
  {
    Robot(false)
  }

  /** How many leading wake-ups still see the round flag set: the loop's
      iterations before it first reads a cleared flag. */
  function ActiveRun(ws: seq<Wake>): (k: nat)
    ensures k <= |ws|
    ensures forall i :: 0 <= i < k ==> ws[i].active
    ensures k < |ws| ==> !ws[k].active
  {
    if |ws| == 0 || !ws[0].active then 0 else 1 + ActiveRun(ws[1..])
  }

  /** Once the flag is cleared by `Stop` and stays so, the loop runs no
      iteration; while it stays set by `Start`, the loop runs on every wake-up. */
  lemma FlagGovernsLoop(r: Robot, ws: seq<Wake>)
    ensures (forall i :: 0 <= i < |ws| ==> ws[i].active == Stop(r).active) ==> ActiveRun(ws) == 0
    ensures (forall i :: 0 <= i < |ws| ==> ws[i].active == Start(r).active) ==> ActiveRun(ws) == |ws|
  {
  }

  // ---------------------------------------------------------------------
  // Life robot

  /** One iteration of the life robot: place a life while fewer than
      `maxLives` lie on the board, otherwise wait. */
  function LifeTick(b: BoardState, maxLives: int, spot: nat): (r: BoardState)
    requires WellFormed(b)
    ensures WellFormed(r) && r.size == b.size
    ensures b.livesCount >= maxLives ==> r == b
    ensures b.livesCount < maxLives ==> r == PlaceLife(b, spot).0
    ensures r.livesCount <= b.livesCount + 1
    ensures r.coinsCount == b.coinsCount && r.coinCells == b.coinCells && r.trapsCount == b.trapsCount
    ensures b.livesCount <= maxLives ==> r.livesCount <= maxLives
  {
    if b.livesCount < maxLives then PlaceLife(b, spot).0 else b
  }

  /** The board after one life tick per wake-up, in order. */
  ghost function LifeTicks(b: BoardState, maxLives: int, ws: seq<Wake>): (r: BoardState)
    requires WellFormed(b)
    ensures WellFormed(r) && r.size == b.size
    decreases |ws|
  {
    if |ws| == 0 then b else LifeTicks(LifeTick(b, maxLives, ws[0].spot), maxLives, ws[1..])
  }

  /** The life robot's loop over its wake-ups: it runs while the flag is set,
      one life tick per iteration. */
  method LifeRun(b: BoardState, maxLives: int, ws: seq<Wake>) returns (r: BoardState, ticks: nat)
    requires WellFormed(b)
    ensures WellFormed(r) && r.size == b.size
    ensures ticks == ActiveRun(ws)
    ensures r == LifeTicks(b, maxLives, ws[..ticks])
    ensures b.livesCount <= r.livesCount <= b.livesCount + ticks
    ensures b.livesCount <= maxLives ==> r.livesCount <= maxLives
    ensures r.coinsCount == b.coinsCount && r.coinCells == b.coinCells && r.trapsCount == b.trapsCount
    ensures Inv(b) ==> Inv(r)
    ensures Inv(b) && CapsHold(b) ==> CapsHold(r)
  {
    r := b;
    ticks := 0;
    var run := ActiveRun(ws);
    while ticks < |ws| && ws[ticks].active
      invariant ticks <= run
      invariant WellFormed(r) && r.size == b.size
      invariant LifeTicks(b, maxLives, ws[..run]) == LifeTicks(r, maxLives, ws[ticks..run])
      invariant b.livesCount <= r.livesCount <= b.livesCount + ticks
      invariant b.livesCount <= maxLives ==> r.livesCount <= maxLives
      invariant r.coinsCount == b.coinsCount && r.coinCells == b.coinCells && r.trapsCount == b.trapsCount
      invariant Inv(b) ==> Inv(r)
      invariant Inv(b) && CapsHold(b) ==> CapsHold(r)
    {
      if Inv(r) {
        PlaceLifeKeepsInv(r, ws[ticks].spot);
      }
      assert ws[ticks..run][1..] == ws[ticks + 1..run];
      r := LifeTick(r, maxLives, ws[ticks].spot);
      ticks := ticks + 1;
    }
  }

  // ---------------------------------------------------------------------
  // Coin robot

  /** One iteration of the coin robot: place coins while under the cap,
      otherwise wait. */
  function CoinTick(b: BoardState, spot: nat, amount: nat): (r: BoardState)
    requires WellFormed(b)
    ensures WellFormed(r) && r.size == b.size
    ensures !CanPlaceCoins(b) ==> r == b
    ensures CanPlaceCoins(b) ==> r == PlaceCoins(b, spot, amount).0
    ensures r.coinCells <= b.coinCells + 1
    ensures r.coinsCount == b.coinsCount || r.coinsCount - b.coinsCount in CoinAmounts
    ensures r.livesCount == b.livesCount && r.trapsCount == b.trapsCount
  {
    if CanPlaceCoins(b) then PlaceCoins(b, spot, amount).0 else b
  }

  /** The board after one coin tick per wake-up, in order. */
  ghost function CoinTicks(b: BoardState, ws: seq<Wake>): (r: BoardState)
    requires WellFormed(b)
    ensures WellFormed(r) && r.size == b.size
    decreases |ws|
  {
    if |ws| == 0 then b else CoinTicks(CoinTick(b, ws[0].spot, ws[0].amount), ws[1..])
  }

  /** The coin robot's loop over its wake-ups: it runs while the flag is set,
      one coin tick per iteration, adding at most one coin cell each time and
      never passing the cap. */
  method CoinRun(b: BoardState, ws: seq<Wake>) returns (r: BoardState, ticks: nat)
    requires WellFormed(b)
    ensures WellFormed(r) && r.size == b.size
    ensures ticks == ActiveRun(ws)
    ensures r == CoinTicks(b, ws[..ticks])
    ensures b.coinCells <= r.coinCells <= b.coinCells + ticks
    ensures r.livesCount == b.livesCount && r.trapsCount == b.trapsCount
    ensures Inv(b) ==> Inv(r)
    ensures Inv(b) && CapsHold(b) ==> CapsHold(r)
  {
    r := b;
    ticks := 0;
    var run := ActiveRun(ws);
    while ticks < |ws| && ws[ticks].active
      invariant ticks <= run
      invariant WellFormed(r) && r.size == b.size
      invariant CoinTicks(b, ws[..run]) == CoinTicks(r, ws[ticks..run])
      invariant b.coinCells <= r.coinCells <= b.coinCells + ticks
      invariant r.livesCount == b.livesCount && r.trapsCount == b.trapsCount
      invariant Inv(b) ==> Inv(r)
      invariant Inv(b) && CapsHold(b) ==> CapsHold(r)
    {
      if Inv(r) {
        PlaceCoinsKeepsInv(r, ws[ticks].spot, ws[ticks].amount);
      }
      assert ws[ticks..run][1..] == ws[ticks + 1..run];
      r := CoinTick(r, ws[ticks].spot, ws[ticks].amount);
      ticks := ticks + 1;
    }
  }

  // ---------------------------------------------------------------------
  // Trap robot

  /** The trap robot has finished once the trap cap is reached. */
  predicate HasFinishedWork(b: BoardState): (done: bool)
    ensures done <==> b.trapsCount >= CeilTenth(b.size)
  {
    !CanPlaceTraps(b)
  }

  /** One iteration of the trap robot: place a trap, then report whether the
      loop goes on, which it does only while the cap is not yet reached. */
  function TrapIteration(b: BoardState, spot: nat): (r: (BoardState, bool))
    requires WellFormed(b) && CanPlaceTraps(b)
    ensures WellFormed(r.0) && r.0.size == b.size
    ensures r.1 <==> !HasFinishedWork(r.0)
    ensures b.trapsCount <= r.0.trapsCount <= b.trapsCount + 1
    ensures r.0.livesCount == b.livesCount && r.0.coinsCount == b.coinsCount && r.0.coinCells == b.coinCells
  {
    var placed := PlaceTrap(b, spot).0;
    (placed, CanPlaceTraps(placed))
  }

  /** The board and the number of iterations when the trap robot places one
      trap per wake-up, in order, until the cap is reached. */
  ghost function TrapPlacements(b: BoardState, ws: seq<Wake>): (r: (BoardState, nat))
    requires WellFormed(b)
    ensures WellFormed(r.0) && r.0.size == b.size && r.1 <= |ws|
    decreases |ws|
  {
    if |ws| == 0 || HasFinishedWork(b) then (b, 0)
    else
      var rest := TrapPlacements(TrapIteration(b, ws[0].spot).0, ws[1..]);
      (rest.0, rest.1 + 1)
  }

  /** One placement on an unfinished board, then the placements along the
      rest of the wake-ups. */
  lemma TrapPlacementsStep(b: BoardState, ws: seq<Wake>, i: nat, run: nat)
    requires WellFormed(b) && !HasFinishedWork(b) && i < run <= |ws|
    ensures var rest := TrapPlacements(TrapIteration(b, ws[i].spot).0, ws[i + 1..run]);
      TrapPlacements(b, ws[i..run]).0 == rest.0 && TrapPlacements(b, ws[i..run]).1 == rest.1 + 1
  {
    assert ws[i..run][1..] == ws[i + 1..run];
  }

  /** With no wake-up left, or once the cap is reached, nothing more is placed. */
  lemma TrapPlacementsDone(b: BoardState, ws: seq<Wake>)
    requires WellFormed(b) && (|ws| == 0 || HasFinishedWork(b))
    ensures TrapPlacements(b, ws) == (b, 0)
  {
  }

  /** Placing traps until the cap stops early only at the cap, changes nothing
      on a finished board, adds at most one trap per iteration and touches
      no other counter, and keeps the invariant and the caps. */
  lemma {:induction false} TrapPlacementsBounds(b: BoardState, ws: seq<Wake>)
    requires WellFormed(b)
    decreases |ws|
    ensures var t := TrapPlacements(b, ws);
      && (t.1 < |ws| ==> HasFinishedWork(t.0))
      && (HasFinishedWork(b) ==> t == (b, 0))
      && b.trapsCount <= t.0.trapsCount <= b.trapsCount + t.1
      && t.0.livesCount == b.livesCount && t.0.coinsCount == b.coinsCount && t.0.coinCells == b.coinCells
      && (Inv(b) ==> Inv(t.0))
      && (Inv(b) && CapsHold(b) ==> CapsHold(t.0))
  {
    if |ws| > 0 && !HasFinishedWork(b) {
      if Inv(b) {
        PlaceTrapKeepsInv(b, ws[0].spot);
      }
      TrapPlacementsBounds(TrapIteration(b, ws[0].spot).0, ws[1..]);
    }
  }

  /** The trap robot's loop: it runs while the flag is set and the cap is not
      reached, placing one trap per iteration, and leaves for good as soon as
      a placement reaches the cap. */
  method TrapRun(b: BoardState, ws: seq<Wake>) returns (r: BoardState, iterations: nat)
    requires WellFormed(b)
    ensures WellFormed(r) && r.size == b.size
    ensures (r, iterations) == TrapPlacements(b, ws[..ActiveRun(ws)])
    ensures iterations <= ActiveRun(ws)
    ensures iterations < ActiveRun(ws) ==> HasFinishedWork(r)
    ensures HasFinishedWork(b) ==> r == b && iterations == 0
    ensures b.trapsCount <= r.trapsCount <= b.trapsCount + iterations
    ensures r.livesCount == b.livesCount && r.coinsCount == b.coinsCount && r.coinCells == b.coinCells
    ensures Inv(b) ==> Inv(r)
    ensures Inv(b) && CapsHold(b) ==> CapsHold(r)
  {
    r := b;
    iterations := 0;
    var run := ActiveRun(ws);
    while iterations < |ws| && ws[iterations].active && CanPlaceTraps(r)
      invariant iterations <= run
      invariant WellFormed(r) && r.size == b.size
      invariant TrapPlacements(b, ws[..run]).0 == TrapPlacements(r, ws[iterations..run]).0
      invariant TrapPlacements(b, ws[..run]).1 == TrapPlacements(r, ws[iterations..run]).1 + iterations
    {
      TrapPlacementsStep(r, ws, iterations, run);
      var (next, goOn) := TrapIteration(r, ws[iterations].spot);
      r := next;
      iterations := iterations + 1;
      if !goOn {
        break;
      }
    }
    assert iterations == run || HasFinishedWork(r);
    TrapPlacementsDone(r, ws[iterations..run]);
    TrapPlacementsBounds(b, ws[..run]);
  }

  // ---------------------------------------------------------------------
  // The board under every actor of a round

  /** Anything that changes the board during a round: a robot iteration, or
      a player occupying, leaving or emptying a cell. */
  datatype Event =
    | LifeEvent(spot: nat)
    | CoinEvent(spot: nat, amount: nat)
    | TrapEvent(spot: nat)
    | Enter(row: int, col: int, who: ActorId)
    | Leave(row: int, col: int, who: ActorId)
    | Take(row: int, col: int)

  function Apply(b: BoardState, maxLives: int, e: Event): (r: BoardState)
    requires WellFormed(b)
    ensures WellFormed(r) && r.size == b.size
  {
    match e
    case LifeEvent(spot) => LifeTick(b, maxLives, spot)
    case CoinEvent(spot, amount) => CoinTick(b, spot, amount)
    case TrapEvent(spot) => if CanPlaceTraps(b) then TrapIteration(b, spot).0 else b
    case Enter(row, col, who) => TryOccupy(b, row, col, who).0
    case Leave(row, col, who) => Release(b, row, col, who)
    case Take(row, col) => Collect(b, row, col).0
  }

  function ApplyAll(b: BoardState, maxLives: int, es: seq<Event>): (r: BoardState)
    requires WellFormed(b)
    ensures WellFormed(r) && r.size == b.size
    decreases |es|
  {
    if |es| == 0 then b else ApplyAll(Apply(b, maxLives, es[0]), maxLives, es[1..])
  }

  /** What holds of the board throughout a round when the life robot is the
      only life placer. */
  ghost predicate RoundSafe(b: BoardState, maxLives: int) {
    Inv(b) && CapsHold(b) && b.livesCount <= maxLives
  }

  /** One event keeps the round safe, never lowers the trap count, and never
      lets the trap robot resume. */
  lemma ApplyKeepsSafe(b: BoardState, maxLives: int, e: Event)
    requires RoundSafe(b, maxLives)
    ensures var r := Apply(b, maxLives, e);
      RoundSafe(r, maxLives) && r.trapsCount >= b.trapsCount
      && (HasFinishedWork(b) ==> HasFinishedWork(r))
  {
    match e
    case LifeEvent(spot) =>
      PlaceLifeKeepsInv(b, spot);
    case CoinEvent(spot, amount) =>
      PlaceCoinsKeepsInv(b, spot, amount);
    case TrapEvent(spot) =>
      PlaceTrapKeepsInv(b, spot);
    case Enter(row, col, who) =>
      TryOccupyKeepsInv(b, row, col, who);
    case Leave(row, col, who) =>
      ReleaseKeepsInv(b, row, col, who);
    case Take(row, col) =>
      CollectKeepsInv(b, row, col);
  }

  /** Any interleaving of robot iterations and player moves keeps the board
      invariant, the coin and trap caps and the life ceiling; the trap count
      never falls, and a finished trap robot stays finished. */
  lemma {:induction false} ApplyAllKeepsSafe(b: BoardState, maxLives: int, es: seq<Event>)
    requires RoundSafe(b, maxLives)
    decreases |es|
    ensures var r := ApplyAll(b, maxLives, es);
      RoundSafe(r, maxLives) && r.trapsCount >= b.trapsCount
      && (HasFinishedWork(b) ==> HasFinishedWork(r))
  {
    if |es| > 0 {
      ApplyKeepsSafe(b, maxLives, es[0]);
      ApplyAllKeepsSafe(Apply(b, maxLives, es[0]), maxLives, es[1..]);
    }
  }
}

=== FILE: wrappers.dfy ===
/** Optional values, standing in for the nullable references of the game
    (an empty cell occupant, a missing item, a scan that found nothing). */
module Wrappers {

  datatype Option<+T> = None | Some(value: T)
}
